=== FILE: README.md ===
# HammerTime procurement core in Dafny

This project models the cart and order core of HammerTime, a Streamlit procurement demo. A site foreman searches for building materials, either by text or by photographing a list. The backend's recommendations become cart lines. The cart is committed as an order, which is auto-approved or left pending approval depending on its total. A separate backend module renders a list of item records as a contract table; nothing in the frontend passes cart or order lines to it.

The model is written as pure functions over immutable values. The session state that the source keeps in `st.session_state` is passed in and returned explicitly.

- `wrappers.dfy`: `Option` and `Result`.
- `text.dfy`: the parts of Python's `str` that the core relies on:
  - `strip()`, using Python's white space set;
  - `lower()` on ASCII letters;
  - `split('.')[-1]`;
  - `str(n)` for a non-negative integer.
- `cart.dfy`:
  - `add_to_cart`, `set_cart_qty`, `remove_from_cart` and `calculate_total` from `Frontend/utils.py`;
  - the facts relating them: ids stay unique, quantities accumulate or are replaced, removal is a filter, and how the total moves.
- `orders.dfy`: `place_order`, which snapshots the cart into an order at the front of the order list, picks the status against the 200 EUR threshold, empties the cart and bumps the cart version.
- `reports.dfy`: the three report figures, and how placing an order moves each of them.
- `backend.dfy`: the JSON replies of the search and image-analysis backends, as input datatypes. A field is `None` when its key is absent.
- `dashboard.dfy`: the product search of `Frontend/views/dashboard.py`:
  - mapping a reply item to a recommendation, with its defaults;
  - the stored search results;
  - the stock badge;
  - the total estimate;
  - "Add" and "Add All to Cart".
- `image_search.dfy`: the image chat of `Frontend/views/image_search.py`:
  - processing a reply;
  - user messages and "Send";
  - "Analyze Image" and "Clear";
  - choosing the media type of an upload;
  - mapping recommended items to products, and "Add All to Cart".
- `contract.dfy`: `create_table` of `backend/pdf_generator.py`, which builds the header row, one row per record and the grand total. It exists in two versions: as written, and corrected (see Findings).

A product's price is kept optional, because a search result copies `preis_stk` without a default. `calculate_total` then raises in Python. The model returns no total in that case, and `PlaceOrder` fails without changing the session. A recommendation's quantity is also optional. `add_to_cart(rec, None)` raises at the `qty > 0` test, so "Add All to Cart" stops at that recommendation and keeps what it added before it. Money is an exact `real`.

In these places the code does something a reader might not expect; the model follows the code:

- `add_to_cart` with a quantity of 0 or less does nothing, in both modes. Only `set_cart_qty` removes a line.
- An order over the threshold is written to the order list at once, with status "Pending Approval". No approval, decline or re-approval step exists in the code.
- "Total Spend" sums every order, whatever its status.
- The order number is drawn at random with no check for collisions.
- A search item without a price is copied without a price. It is neither dropped nor zero-filled.

## Model

| member | source | states |
|---|---|---|
| Cart.FindLine | Frontend/utils.py:12-13 | the line the search loop stops at: none iff no line has the id, otherwise the first line with it |
| Cart.AddToCart | Frontend/utils.py:9-19 | a quantity of 0 or less leaves the cart as it is. For an absent id, exactly one line `(product, qty)` is appended. For a present id, only the first line with that id changes: its quantity is increased (add mode) or replaced, and it keeps its own product record |
| Cart.AddKeepsUnique | Frontend/utils.py:9-19 | adding never puts two lines with the same id into a cart whose ids are unique |
| Cart.AddIds | Frontend/utils.py:9-19 | after a positive add, the cart's ids are exactly the previous ids plus the product's id |
| Cart.AddAccumulates | Frontend/utils.py:14-15 | in add mode, the quantity held under the product's id grows by exactly `qty`. Every other id's quantity is unchanged |
| Cart.AddReplaces | Frontend/utils.py:16-17 | in replace mode on a cart with unique ids, the quantity under the product's id becomes exactly `qty`. Other ids keep theirs |
| Cart.AddExistingIsUpdate | Frontend/utils.py:12-18 | for an id already present, adding is a point update of its first line and nothing else |
| Cart.AddCostFresh | Frontend/utils.py:19 | appending a new product raises the cart's Σ price × qty by the product's price × qty |
| Cart.AddCostExisting | Frontend/utils.py:14-15 | adding to an existing line raises Σ price × qty by that line's price × the added quantity. The new record's own price plays no part |
| Cart.UpdateCost | Frontend/utils.py:41 | raising one line's quantity by `q` raises Σ price × qty by that line's price × `q` |
| Cart.AddKeepsPriced | Frontend/utils.py:9-19 | adding a priced product to a fully priced cart keeps every line priced |
| Cart.AccumulateScenario | Frontend/utils.py:14-15 | adding 5 and then 3 of a product to an empty cart gives a single line of 8 |
| Cart.RemoveFromCart | Frontend/utils.py:34-36 | no line with the id is left, every remaining line comes from the cart, and the cart is unchanged when the id is absent |
| Cart.RemoveAppend | Frontend/utils.py:36 | removal distributes over concatenation, so each part keeps its surviving lines in order |
| Cart.RemoveSingle | Frontend/utils.py:36 | a single line survives removal exactly when its id differs |
| Cart.RemoveIdempotent | Frontend/utils.py:36 | removing twice equals removing once |
| Cart.RemoveQty | Frontend/utils.py:36 | nothing is left under the removed id, and every other id's quantity is unchanged |
| Cart.RemoveIds | Frontend/utils.py:36 | the ids after removal are the ids before, minus the removed one |
| Cart.RemoveKeepsLine | Frontend/utils.py:36 | every id other than the removed one is still present afterwards |
| Cart.RemoveKeepsUnique | Frontend/utils.py:36 | removal keeps ids unique |
| Cart.RemoveCost | Frontend/utils.py:36 | removal lowers Σ price × qty by exactly the cost of the lines with that id |
| Cart.SetCartQty | Frontend/utils.py:22-31 | a positive quantity is set exactly as a replace-mode add sets it, and leaves the id present. Any other quantity is `remove_from_cart` of the id: the id is gone and every other line is kept, in order |
| Cart.SetQtyExact | Frontend/utils.py:22-31 | on a cart with unique ids: ids stay unique, the quantity under the id is exactly `qty` if it is positive and 0 otherwise, and every other id keeps its quantity |
| Cart.SetZeroScenario | Frontend/utils.py:30-31 | setting an existing product's quantity to 0 removes its line and keeps the others |
| Cart.ApplyAllKeepsUnique | Frontend/utils.py:9-36 | no sequence of add, set-quantity and remove calls ever produces two lines with the same id |
| Cart.CalculateTotal | Frontend/utils.py:39-41 | a total exists iff every line has a price. It is then Σ price × qty, and 0 for an empty cart |
| Orders.OrderId | Frontend/utils.py:50 | the id is `ORD-` followed by decimal digits that denote the order's number, with no leading zero |
| Orders.StatusFor | Frontend/utils.py:47 | pending approval iff the total is above 200, auto-approved iff it is at most 200 |
| Orders.StatusLabel | Frontend/utils.py:47 | the label is "Pending Approval" iff the status is pending, and "Auto-Approved" iff it is auto-approved, the two strings `place_order` writes and the report counts by |
| Orders.PlaceOrder | Frontend/utils.py:44-60 | fails iff some cart line has no price, and then the session is unchanged. Otherwise one order is put in front of the old ones, which are kept as they were. The order holds the cart as its items, the cart's total, the given number, the given date and "Site Foreman", with a status that is pending iff the total exceeds 200. The cart is emptied and the version goes up by one |
| Orders.ThresholdIsStrict | Frontend/utils.py:47 | a cart of exactly 200 is placed auto-approved |
| Orders.SampleOrders | Frontend/utils.py:44-60 | 50 items at 0.08 give an order of 4, auto-approved, and an empty cart. 2 items at 150 give an order of 300, pending approval |
| Reports.TotalOrders | Frontend/views/reports.py:14 | "Total Orders" is 0 iff there are no orders, and is never below "Pending Approvals" |
| Reports.TotalSpend | Frontend/views/reports.py:18 | "Total Spend" is 0 for no orders and the order's total for one; with TotalSpendAppend it is Σ `Total (EUR)` over every order |
| Reports.PendingCount | Frontend/views/reports.py:22 | the count is at most the number of orders and 0 iff no order is pending; one order counts 1 iff it is pending |
| Reports.PendingCountAppend | Frontend/views/reports.py:22 | the pending count adds up over concatenated order lists, so with the one-order case it is the number of pending orders in any list |
| Reports.TotalSpendAppend | Frontend/views/reports.py:18 | spend adds up over concatenated order lists |
| Reports.PlaceOrderMovesReports | Frontend/views/reports.py:14-23 | placing an order adds one to "Total Orders" and adds the cart's Σ price × qty to "Total Spend". It adds one to "Pending Approvals" exactly when that sum is above 200 |
| Dashboard.ToRecommendation | Frontend/views/dashboard.py:53-66 | id, name, quantity, price, category and supplier are copied as given, and may be absent. The subtotal is price × quantity, or 0 when either is absent. Stock defaults to 0, the quantity still to order to `anzahl` and then 0, preferred to false, and lead time to 7 days. A given value always wins over its default |
| Dashboard.Normalize | Frontend/views/dashboard.py:53-66 | one recommendation per item, in the items' order |
| Dashboard.Interpret | Frontend/views/dashboard.py:49-82 | results are stored iff the request succeeded and the body has both `items` and `explanation`. They then hold the explanation, the mapped items, and `requireApproval`, which is false unless the reply set it to true |
| Dashboard.Search | Frontend/views/dashboard.py:38-82 | an empty query changes nothing. Otherwise the query is remembered and the results become what the reply yields, so a failed request clears them |
| Dashboard.ClearResults | Frontend/views/dashboard.py:31-35 | results are gone afterwards, and the remembered query is reset when there were results |
| Dashboard.StockStatusOf | Frontend/views/dashboard.py:127-137 | in stock iff stock ≥ qty. Low stock iff 0 < stock < qty. Otherwise to order |
| Dashboard.RecStockStatus | Frontend/views/dashboard.py:127-129 | a recommendation has a badge iff its quantity is present, and then the badge is chosen from its stock and quantity |
| Dashboard.EstimateOfItems | Frontend/views/dashboard.py:147 | the total estimate of a reply equals Σ `preis_stk` × `anzahl` over its items, with absent fields counted as 0 |
| Dashboard.TotalEstimate | Frontend/views/dashboard.py:147 | "Total Estimate" is 0 for no recommendations and the subtotal of the only one for one; EstimateOfItems gives it for any reply |
| Dashboard.AddRecommendation | Frontend/views/dashboard.py:143-144 | "Add" fails iff the quantity is absent, and otherwise is an add-mode `add_to_cart` |
| Dashboard.AddAll | Frontend/views/dashboard.py:98-100 | "Add All" runs to the end iff every quantity is present, keeps ids unique, and does nothing with no recommendations |
| Dashboard.FirstMissing | Frontend/views/dashboard.py:99-100 | how far "Add All" gets: every recommendation before it has a quantity, and the one at it, if any, has none |
| Dashboard.AddAllStopsAtMissing | Frontend/views/dashboard.py:99-100 | a run that stops leaves the cart exactly as the completed run over the recommendations before the first absent quantity |
| Dashboard.AddAllQty | Frontend/views/dashboard.py:99-100 | when every quantity is present, each id's quantity rises by the sum of the positive quantities of the recommendations with that id |
| Dashboard.AddAllQtyAnyRun | Frontend/views/dashboard.py:99-100 | for any run, each id's quantity rises by the positive quantities of its recommendations before the first absent quantity, and by nothing after it |
| Dashboard.ToRecommendationOrderable | Frontend/views/dashboard.py:57-61 | an item with a price and a positive quantity maps to a priced recommendation whose subtotal is its cart cost |
| Dashboard.AddAllMatchesEstimate | Frontend/views/dashboard.py:98-100 | adding orderable recommendations with fresh, distinct ids completes and raises the cart's cost by exactly their total estimate |
| Dashboard.AddAllToEmptyCartTotal | Frontend/views/dashboard.py:147 | "Add All" of priced results with positive quantities and distinct ids, into an empty cart, gives a cart whose total is the estimate shown |
| Dashboard.AddAllKeepsPriced | Frontend/views/dashboard.py:98-100 | adding priced recommendations keeps a fully priced cart fully priced |
| ImageSearch.ReplyText | Frontend/views/image_search.py:27-53 | every reply produces an assistant message except an ok body of an unrecognised type |
| ImageSearch.ProcessImageResponse | Frontend/views/image_search.py:12-55 | the pending flag is always cleared. Exactly one assistant message is appended, or none for an unrecognised type, and the earlier history is kept. A question's text is appended as it is. Only a recommendation reply replaces the stored recommendations, and its message is the tick followed by the explanation or the default one |
| ImageSearch.AddUserMessage | Frontend/views/image_search.py:58-64 | one user message is appended and a reply becomes pending. Nothing else changes |
| ImageSearch.Send | Frontend/views/image_search.py:154-158 | input that is nothing but white space changes nothing. Otherwise the stripped text is sent, and it neither starts nor ends with white space |
| ImageSearch.ConversationRound | Frontend/views/image_search.py:154-158 | a non-blank send followed by an understood reply ends the history with the stripped user text and then the answer, with nothing pending |
| ImageSearch.Analyze | Frontend/views/image_search.py:120-127 | the conversation restarts with the fixed prompt, and a reply is pending |
| ImageSearch.ClearChat | Frontend/views/image_search.py:160-166 | messages, recommendations, the pending flag and the upload are all reset |
| ImageSearch.MediaType | Frontend/views/image_search.py:92-96 | a non-empty reported type is used as it is. Otherwise the result is always one of `image/png`, `image/jpg`, `image/jpeg` |
| ImageSearch.MediaTypeFromExtension | Frontend/views/image_search.py:95-96 | for `stem.ext` without a reported type: png, jpg or jpeg in any letter case give `image/` plus the lower-cased extension, and every other extension gives `image/jpeg` |
| ImageSearch.ReceiveUpload | Frontend/views/image_search.py:98-108 | the same image again changes nothing. A different one is stored with its media type and name, and the chat and recommendations are reset |
| ImageSearch.ImageProduct | Frontend/views/image_search.py:191-198 | the id falls back to '', the name to the id and then '', the price to 0, the description and supplier to '', and the icon is the bolt |
| ImageSearch.ImageQty | Frontend/views/image_search.py:199 | the quantity is `anzahl`, or 1 when it is absent |
| ImageSearch.AddImageItem | Frontend/views/image_search.py:190-200 | the "+" button: a non-positive quantity changes nothing; otherwise the quantity under the item's id grows by exactly that quantity, every other id keeps its quantity, and the id joins the cart's ids; ids stay unique |
| ImageSearch.StoredItems | Frontend/views/image_search.py:174 | the stored recommendations' `items`, or none when there are no recommendations or they have no `items` |
| ImageSearch.AddItems | Frontend/views/image_search.py:211-220 | adding the items in order keeps ids unique and keeps a fully priced cart fully priced |
| ImageSearch.AddItemsQty | Frontend/views/image_search.py:211-220 | each id's quantity rises by the sum of the positive quantities of the items with that id |
| ImageSearch.AddAllToCart | Frontend/views/image_search.py:210-223 | with no stored items nothing changes. Otherwise all items are added and the recommendations are cleared. Ids stay unique, and a priced cart still has a total |
| Contract.Count | backend/pdf_generator.py:46 | as written, the count is the `quantity` field alone. Corrected, it is `quantity` and then `qty` |
| Contract.LineTotal | backend/pdf_generator.py:48 | count × price, or 0 when either is absent |
| Contract.GrandTotal | backend/pdf_generator.py:41-51 | the total starts at 0 and for one record is its line total; with GrandTotalSnoc it is Σ of the line totals in order |
| Contract.GrandTotalSnoc | backend/pdf_generator.py:51 | appending a record adds exactly its line total, as each loop step does |
| Contract.Row | backend/pdf_generator.py:43-49 | five cells: id, name, the count read by the key in use, and price, each blank when absent, then the line total |
| Contract.BuildTable | backend/pdf_generator.py:31-54 | the header comes first, then one row per record in input order, and the running total equals the grand total of the line totals |
| Contract.CreateTable | backend/pdf_generator.py:16-54 | the as-written table reads the count from `quantity` only. Its total is the Σ of those line totals, and 0 for no records |
| Contract.CreateTableCorrected | backend/pdf_generator.py:16-54 | the same table and total with the count read from `quantity` or `qty` |
| Contract.QtyKeyedItemsAddNothing | backend/pdf_generator.py:46-51 | as written, records without a `quantity` key total 0, whatever their prices |
| Contract.SampleRecordTotals | backend/pdf_generator.py:211 | the first sample record totals 0 and has a blank quantity cell as written. Corrected, it totals 4 |
| Contract.ContractTotalOfLines | backend/pdf_generator.py:41-54 | with the corrected count, the contract of any priced cart snapshot totals its Σ price × qty |
| Contract.PlacedOrderContract | backend/pdf_generator.py:144 | if a freshly placed order's items were passed to the contract generator, the contract would total the order's stored total when corrected, and 0 as written |
| Text.Strip | Frontend/views/image_search.py:156-157 | the result is the slice left after removing white space from both ends: neither end is white space, and it is empty iff the input is all white space |
| Text.StripIdempotent | Frontend/views/image_search.py:157 | stripping twice removes nothing more |
| Text.Lower | Frontend/views/image_search.py:95 | same length, with each ASCII capital mapped to its small letter and every other character kept |
| Text.AfterLastDot | Frontend/views/image_search.py:95 | a suffix of the name with no '.', preceded by a '.' unless it is the whole name |
| Text.AfterLastDotOfExtension | Frontend/views/image_search.py:95 | the last component of `stem.ext` is `ext` when `ext` has no '.' |
| Text.NatToString | Frontend/utils.py:50 | at least one decimal digit, with no leading zero |
| Text.NatToStringRoundTrip | Frontend/utils.py:50 | reading the digits back gives the number |
| Text.NatToStringInjective | Frontend/utils.py:50 | different numbers format differently |
| Text.Numbered | Frontend/utils.py:50 | a prefix followed by digits that read back as the number, with no leading zero |

## Left out

- Page rendering, the rerun loop, toasts, the chat and summary widgets, and everything in `Frontend/styles.py`, `Frontend/components.py` and `Frontend/app.py`: display only.
- The HTTP calls to the search and image-analysis backends. Their replies are inputs (`Backend.SearchReply`, `Backend.ImageReply`), and the exception text is a string input.
- Reading and base64-encoding the uploaded file: the encoded text is an input to `ImageSearch.ReceiveUpload`.
- `random.randint` and `datetime.now()`: the order number (a value from 1000 to 9999) and the date text are inputs to `Orders.PlaceOrder`.
- `Orders.PlaceOrder`: the source does not make order ids unique, so the model does not either.
- `Cart.CalculateTotal`: totals are exact reals. The model does not follow IEEE double rounding, nor the two-decimal formatting at display.
- `Text.Lower`: folds ASCII letters only. This is exact for the png/jpg/jpeg test it serves: no non-ASCII character lower-cases into any of the letters of those three words.
- JSON `null` for a present key is not told apart from an absent key. In the source, a null quantity or price in a search item makes the subtotal raise.
- Fields of the wrong JSON type (a string price, a list where a record is expected) are not modelled. The fields are typed. An image "recommendations" reply whose content is not an object is not modelled either. In the source, that reply stores the content and then reports a connection error.
- The ReportLab document around the table: `draw_header`, `draw_footer`, `draw_page`, the paragraphs and `generate_pdf_contract`'s file output. So is the module-level `elements` list, which grows across calls.
- Speech input, from `Frontend/views/voice_request.py`: it is not part of the core.
- Admin approval, decline and re-approval: the code has no such step. Orders over the threshold stay "Pending Approval", and the other status labels only exist as display strings in `Frontend/views/orders.py`.

## Findings

| source | as written | input that shows it | evidently intended | confidence | as-written member | corrected member |
|---|---|---|---|---|---|---|
| backend/pdf_generator.py:46-51 | `create_table` reads the count from the key `quantity` | the sample record at line 211 (`qty` 50, `price` 0.08). Its row gets no quantity and a line total of 0, so the contract totals 0 instead of 4. Cart lines and placed orders' items are also keyed `qty`, so they would total 0 if passed to `create_table` | read the count under `qty`, the key the docstring (lines 20-29), the sample data (lines 211-231) and the cart use. The commented sample at line 37 uses `quantity`, so the corrected reader takes `quantity` and falls back to `qty` | not executed | Contract.CreateTable, Contract.SampleRecordTotals | Contract.CreateTableCorrected, Contract.PlacedOrderContract |

=== FILE: backend.dfy ===
/** The backend replies the views consume, as inputs: the HTTP calls
    themselves are outside the model. A field is `None` when its key is
    absent from the JSON object. */
module Backend {
  import opened Wrappers

  /** One catalogue record of a reply, with the backend's German keys:
      `artikel_id`, `artikelname`, `anzahl`, `preis_stk`, `kategorie`,
      `lieferant`, `lagerbestand`, `needs_order`, `is_preferred`,
      `lead_time_days`. */
  datatype ApiItem = ApiItem(
    artikelId: Option<string>,
    artikelname: Option<string>,
    anzahl: Option<int>,
    preisStk: Option<real>,
    kategorie: Option<string>,
    lieferant: Option<string>,
    lagerbestand: Option<int>,
    needsOrder: Option<int>,
    isPreferred: Option<bool>,
    leadTimeDays: Option<int>)

  /** The JSON body of a product-search reply. An empty or null body has
      every key absent. */
  datatype SearchPayload = SearchPayload(
    items: Option<seq<ApiItem>>,
    explanation: Option<string>,
    requireApproval: Option<bool>)

  /** What a product search produced: a decoded body, a failed request
      (including a non-2xx status), or any other exception while decoding. */
  datatype SearchReply =
    | Received(payload: SearchPayload)
    | RequestFailed(reason: string)
    | ProcessingFailed(reason: string)

  /** The `content` of a "recommendations" reply of the image analysis. */
  datatype ImageRecs = ImageRecs(
    explanation: Option<string>,
    items: Option<seq<ApiItem>>,
    total: Option<real>)

  /** A reply `type` other than the three the image view handles. */
  type OtherKind = k: string | k != "question" && k != "recommendations" && k != "error"
    witness ""

  /** The decoded body of an image-analysis reply, by its `type`. */
  datatype ImageBody =
    | Question(question: string)
    | Recommendations(recs: ImageRecs)
    | ErrorBody(message: string)
    | Unrecognised(kind: OtherKind)

  /** What an image-analysis call produced: a body from an ok response, a
      non-ok HTTP status, or an exception (connection error and the like). */
  datatype ImageReply =
    | Answered(body: ImageBody)
    | NotOk(statusCode: nat)
    | Unreachable(reason: string)
}

=== FILE: cart.dfy ===
/** The session cart of `Frontend/utils.py`: a sequence of lines keyed by the
    product's `id`, changed only by add, set-quantity and remove, and priced
    by `calculate_total`. */
module Cart {
  import opened Wrappers

  /** The join key of the cart: a product's `id` field. Records built from a
      search reply copy `artikel_id` without a default, so the key may be
      absent; Python compares two absent keys (`None == None`) as equal. */
  type Key = Option<string>

  /** The fields of a product record other than id, name and price, by where
      the record was built. */
  datatype Details =
    | Searched(category: Option<string>, supplier: Option<string>, subtotal: real,
               stock: int, needsOrder: int, preferred: bool, leadTimeDays: int)
    | Pictured(description: string, supplierName: string, icon: string)

  /** A product record as handed to `add_to_cart`. A missing `price` is kept
      missing: the cart accepts it, and only the total fails on it. */
  datatype Product = Product(id: Key, name: Option<string>, price: Option<real>, details: Details)

  /** One cart entry: the product record with its `qty` key set. */
  datatype Line = Line(product: Product, qty: int)

  /** No two lines of the cart share an id. */
  predicate UniqueIds(cart: seq<Line>) {
    forall i, j :: 0 <= i < j < |cart| ==> cart[i].product.id != cart[j].product.id
  }

  predicate HasId(cart: seq<Line>, id: Key) {
    exists i :: 0 <= i < |cart| && cart[i].product.id == id
  }

  /** An id is in a non-empty cart iff it is the first line's or in the rest. */
  lemma HasIdCons(cart: seq<Line>, id: Key)
    requires |cart| > 0
    ensures HasId(cart, id) <==> cart[0].product.id == id || HasId(cart[1..], id)
  {
    if HasId(cart[1..], id) {
      var i :| 0 <= i < |cart[1..]| && cart[1..][i].product.id == id;
      assert cart[i + 1].product.id == id;
    }
    if HasId(cart, id) && cart[0].product.id != id {
      var i :| 0 <= i < |cart| && cart[i].product.id == id;
      assert cart[1..][i - 1].product.id == id;
    }
  }

  /** The ids present in the cart. */
  function Ids(cart: seq<Line>): (ids: set<Key>)
    ensures forall id :: id in ids <==> HasId(cart, id)
  {
    if |cart| == 0 then {}
    else
      var rest := Ids(cart[1..]);
      assert forall id :: HasId(cart, id) <==> cart[0].product.id == id || HasId(cart[1..], id) by {
        forall id ensures HasId(cart, id) <==> cart[0].product.id == id || HasId(cart[1..], id) {
          HasIdCons(cart, id);
        }
      }
      {cart[0].product.id} + rest
  }

  /** The index of the first line with `id`: the line the source's loop stops at. */
  function FindLine(cart: seq<Line>, id: Key): (r: Option<nat>)
    ensures r.None? <==> !HasId(cart, id)
    ensures r.Some? ==> r.value < |cart| && cart[r.value].product.id == id
    ensures r.Some? ==> forall j :: 0 <= j < r.value ==> cart[j].product.id != id
  {
    if |cart| == 0 then None
    else if cart[0].product.id == id then Some(0)
    else match FindLine(cart[1..], id)
      case None =>
        HasIdCons(cart, id);
        None
      case Some(k) =>
        assert forall j :: 1 <= j < k + 1 ==> cart[j] == cart[1..][j - 1];
        Some(k + 1)
  }

  /** `add_to_cart(product, qty, add_mode)`. A non-positive quantity changes
      nothing. Otherwise the first line with the product's id gets `qty`
      added (add mode) or has its quantity replaced by `qty`, keeping its own
      product record; without such a line, a new line goes at the end. */
  function AddToCart(cart: seq<Line>, product: Product, qty: int, addMode: bool): (r: seq<Line>)
    ensures qty <= 0 ==> r == cart
    ensures qty > 0 && !HasId(cart, product.id) ==> r == cart + [Line(product, qty)]
    ensures qty > 0 && HasId(cart, product.id) ==>
      var i := FindLine(cart, product.id).value;
      && |r| == |cart|
      && r[i] == Line(cart[i].product, if addMode then cart[i].qty + qty else qty)
      && (forall j :: 0 <= j < |cart| && j != i ==> r[j] == cart[j])
  {
    if qty <= 0 then cart
    else match FindLine(cart, product.id)
      case None => cart + [Line(product, qty)]
      case Some(i) => cart[i := Line(cart[i].product, if addMode then cart[i].qty + qty else qty)]
  }

  /** `remove_from_cart(product_id)`: the lines whose id differs, in order. */
  function RemoveFromCart(cart: seq<Line>, id: Key): (r: seq<Line>)
    ensures |r| <= |cart|
    ensures !HasId(r, id)
    ensures forall i :: 0 <= i < |r| ==> r[i] in cart
    ensures !HasId(cart, id) ==> r == cart
  {
    if |cart| == 0 then []
    else
      var rest := RemoveFromCart(cart[1..], id);
      HasIdCons(cart, id);
      assert forall i :: 0 <= i < |rest| ==> rest[i] in cart[1..];
      if cart[0].product.id == id then rest
      else
        assert cart == [cart[0]] + cart[1..];
        [cart[0]] + rest
  }

  /** `set_cart_qty(product, qty)`: a positive quantity is set exactly, with
      the same search-and-replace as `add_to_cart` in replace mode; any other
      quantity removes the product's id. */
  function SetCartQty(cart: seq<Line>, product: Product, qty: int): (r: seq<Line>)
    ensures qty <= 0 ==> !HasId(r, product.id)
    ensures qty > 0 ==> HasId(r, product.id)
    ensures qty > 0 ==> r == AddToCart(cart, product, qty, false)
    ensures qty <= 0 ==> r == RemoveFromCart(cart, product.id)
  {
    if qty > 0 then
      AddIds(cart, product, qty, false);
      AddToCart(cart, product, qty, false)
    else RemoveFromCart(cart, product.id)
  }

  /** The quantity held under `id`, summed over every line with that id. */
  function QtyOf(cart: seq<Line>, id: Key): int {
    if |cart| == 0 then 0
    else (if cart[0].product.id == id then cart[0].qty else 0) + QtyOf(cart[1..], id)
  }

  /** `item['price'] * item['qty']` for a line whose price is present. */
  function Cost(l: Line): real {
    l.product.price.GetOr(0.0) * l.qty as real
  }

  /** Σ price × qty over the cart, for carts whose prices are all present. */
  function SumCost(cart: seq<Line>): real {
    if |cart| == 0 then 0.0 else Cost(cart[0]) + SumCost(cart[1..])
  }

  predicate AllPriced(cart: seq<Line>) {
    forall i :: 0 <= i < |cart| ==> cart[i].product.price.Some?
  }

  /** `calculate_total()`: Σ price × qty over the cart. Python raises a
      TypeError when some line has no price, so the total is then absent. */
  function CalculateTotal(cart: seq<Line>): (r: Option<real>)
    ensures r.Some? <==> AllPriced(cart)
    ensures r.Some? ==> r.value == SumCost(cart)
    ensures |cart| == 0 ==> r == Some(0.0)
  {
    if AllPriced(cart) then Some(SumCost(cart)) else None
  }

  // ---------------------------------------------------------------------
  // Sums over concatenations and point updates

  lemma {:induction false} QtyOfAppend(a: seq<Line>, b: seq<Line>, id: Key)
    ensures QtyOf(a + b, id) == QtyOf(a, id) + QtyOf(b, id)
  {
    if |a| > 0 {
      assert (a + b)[1..] == a[1..] + b;
      QtyOfAppend(a[1..], b, id);
    } else {
      assert a + b == b;
    }
  }

  lemma {:induction false} QtyOfUpdate(cart: seq<Line>, i: nat, l: Line, id: Key)
    requires i < |cart|
    ensures QtyOf(cart[i := l], id)
         == QtyOf(cart, id) - (if cart[i].product.id == id then cart[i].qty else 0)
                            + (if l.product.id == id then l.qty else 0)
  {
    if i > 0 {
      assert cart[i := l][1..] == cart[1..][i - 1 := l];
      QtyOfUpdate(cart[1..], i - 1, l, id);
    } else {
      assert cart[i := l][1..] == cart[1..];
    }
  }

  lemma {:induction false} QtyOfAbsent(cart: seq<Line>, id: Key)
    requires !HasId(cart, id)
    ensures QtyOf(cart, id) == 0
  {
    if |cart| > 0 {
      HasIdCons(cart, id);
      QtyOfAbsent(cart[1..], id);
    }
  }

  /** In a cart with unique ids, the quantity under an id is that of its line. */
  lemma {:induction false} QtyOfUnique(cart: seq<Line>, i: nat)
    requires UniqueIds(cart) && i < |cart|
    ensures QtyOf(cart, cart[i].product.id) == cart[i].qty
  {
    var id := cart[i].product.id;
    if i == 0 {
      assert forall k :: 0 <= k < |cart[1..]| ==> cart[1..][k] == cart[k + 1];
      QtyOfAbsent(cart[1..], id);
    } else {
      assert cart[1..][i - 1] == cart[i];
      assert cart[0].product.id != id;
      QtyOfUnique(cart[1..], i - 1);
    }
  }

  lemma {:induction false} SumCostAppend(a: seq<Line>, b: seq<Line>)
    ensures SumCost(a + b) == SumCost(a) + SumCost(b)
  {
    if |a| > 0 {
      assert (a + b)[1..] == a[1..] + b;
      SumCostAppend(a[1..], b);
    } else {
      assert a + b == b;
    }
  }

  lemma {:induction false} SumCostUpdate(cart: seq<Line>, i: nat, l: Line)
    requires i < |cart|
    ensures SumCost(cart[i := l]) == SumCost(cart) - Cost(cart[i]) + Cost(l)
  {
    if i > 0 {
      assert cart[i := l][1..] == cart[1..][i - 1 := l];
      SumCostUpdate(cart[1..], i - 1, l);
    } else {
      assert cart[i := l][1..] == cart[1..];
    }
  }

  // ---------------------------------------------------------------------
  // add_to_cart

  /** Adding keeps ids unique: an existing id is updated in place, and a new
      line is appended only when its id is absent. */
  lemma AddKeepsUnique(cart: seq<Line>, product: Product, qty: int, addMode: bool)
    ensures UniqueIds(cart) ==> UniqueIds(AddToCart(cart, product, qty, addMode))
  {
    var r := AddToCart(cart, product, qty, addMode);
    if !UniqueIds(cart) {
    } else if qty > 0 && !HasId(cart, product.id) {
      forall i, j | 0 <= i < j < |r| ensures r[i].product.id != r[j].product.id {
        if j == |cart| {
          assert r[i] == cart[i];
        } else {
          assert r[i] == cart[i] && r[j] == cart[j];
        }
      }
    } else if qty > 0 {
      var k := FindLine(cart, product.id).value;
      forall i, j | 0 <= i < j < |r| ensures r[i].product.id != r[j].product.id {
        assert r[i].product.id == cart[i].product.id;
        assert r[j].product.id == cart[j].product.id;
      }
    }
  }

  /** After a positive add, the product's id is in the cart and the ids are
      exactly those before plus that id. */
  lemma AddIds(cart: seq<Line>, product: Product, qty: int, addMode: bool)
    requires qty > 0
    ensures Ids(AddToCart(cart, product, qty, addMode)) == Ids(cart) + {product.id}
  {
    var r := AddToCart(cart, product, qty, addMode);
    if HasId(cart, product.id) {
      var k := FindLine(cart, product.id).value;
      forall id ensures HasId(r, id) <==> HasId(cart, id) {
        if HasId(r, id) {
          var i :| 0 <= i < |r| && r[i].product.id == id;
          assert cart[i].product.id == id;
        }
        if HasId(cart, id) {
          var i :| 0 <= i < |cart| && cart[i].product.id == id;
          assert r[i].product.id == id;
        }
      }
    } else {
      forall id ensures HasId(r, id) <==> HasId(cart, id) || id == product.id {
        if HasId(r, id) {
          var i :| 0 <= i < |r| && r[i].product.id == id;
          if i < |cart| { assert cart[i].product.id == id; }
        }
        if HasId(cart, id) {
          var i :| 0 <= i < |cart| && cart[i].product.id == id;
          assert r[i].product.id == id;
        }
        assert r[|cart|].product.id == product.id;
      }
    }
  }

  /** In add mode the quantity under the product's id grows by exactly `qty`
      and the quantity under every other id is unchanged. */
  lemma AddAccumulates(cart: seq<Line>, product: Product, qty: int, other: Key)
    requires qty > 0
    ensures QtyOf(AddToCart(cart, product, qty, true), product.id) == QtyOf(cart, product.id) + qty
    ensures other != product.id ==>
      QtyOf(AddToCart(cart, product, qty, true), other) == QtyOf(cart, other)
  {
    var r := AddToCart(cart, product, qty, true);
    if HasId(cart, product.id) {
      var i := FindLine(cart, product.id).value;
      assert r == cart[i := Line(cart[i].product, cart[i].qty + qty)];
      QtyOfUpdate(cart, i, Line(cart[i].product, cart[i].qty + qty), product.id);
      QtyOfUpdate(cart, i, Line(cart[i].product, cart[i].qty + qty), other);
    } else {
      QtyOfAppend(cart, [Line(product, qty)], product.id);
      QtyOfAppend(cart, [Line(product, qty)], other);
      assert [Line(product, qty)][1..] == [];
    }
  }

  /** In replace mode on a cart with unique ids, the quantity under the
      product's id becomes exactly `qty`; other ids are unchanged. */
  lemma AddReplaces(cart: seq<Line>, product: Product, qty: int, other: Key)
    requires qty > 0 && UniqueIds(cart)
    ensures QtyOf(AddToCart(cart, product, qty, false), product.id) == qty
    ensures other != product.id ==>
      QtyOf(AddToCart(cart, product, qty, false), other) == QtyOf(cart, other)
  {
    var r := AddToCart(cart, product, qty, false);
    AddKeepsUnique(cart, product, qty, false);
    if HasId(cart, product.id) {
      var i := FindLine(cart, product.id).value;
      QtyOfUnique(r, i);
      QtyOfUpdate(cart, i, Line(cart[i].product, qty), other);
    } else {
      QtyOfUnique(r, |cart|);
      QtyOfAppend(cart, [Line(product, qty)], other);
      assert [Line(product, qty)][1..] == [];
    }
  }

  /** A positive add of a product whose id is not in the cart raises the
      cart's cost by the product's own price times `qty`. */
  lemma AddCostFresh(cart: seq<Line>, product: Product, qty: int, addMode: bool)
    requires qty > 0 && !HasId(cart, product.id)
    ensures SumCost(AddToCart(cart, product, qty, addMode)) == SumCost(cart) + Cost(Line(product, qty))
  {
    assert AddToCart(cart, product, qty, addMode) == cart + [Line(product, qty)];
    SumCostAppend(cart, [Line(product, qty)]);
    assert [Line(product, qty)][1..] == [];
  }

  /** A positive add in add mode to an id already in the cart raises the
      cart's cost by the price of that id's first line times `qty`. */
  lemma AddCostExisting(cart: seq<Line>, product: Product, qty: int)
    requires qty > 0 && FindLine(cart, product.id).Some?
    ensures var i := FindLine(cart, product.id).value;
      SumCost(AddToCart(cart, product, qty, true)) == SumCost(cart) + Cost(Line(cart[i].product, qty))
  {
    AddExistingIsUpdate(cart, product, qty, true);
    UpdateCost(cart, FindLine(cart, product.id).value, qty);
  }

  /** On an id already present, adding is a point update of its first line. */
  lemma AddExistingIsUpdate(cart: seq<Line>, product: Product, qty: int, addMode: bool)
    requires qty > 0 && FindLine(cart, product.id).Some?
    ensures var i := FindLine(cart, product.id).value;
      AddToCart(cart, product, qty, addMode)
        == cart[i := Line(cart[i].product, if addMode then cart[i].qty + qty else qty)]
  {
  }

  /** Raising line `i` by `qty` raises the cost by its price times `qty`. */
  lemma UpdateCost(cart: seq<Line>, i: nat, qty: int)
    requires i < |cart|
    ensures SumCost(cart[i := Line(cart[i].product, cart[i].qty + qty)])
         == SumCost(cart) + Cost(Line(cart[i].product, qty))
  {
    var l := Line(cart[i].product, cart[i].qty + qty);
    SumCostUpdate(cart, i, l);
    CostSplit(cart[i].product, cart[i].qty, qty);
  }

  lemma CostSplit(p: Product, a: int, b: int)
    ensures Cost(Line(p, a + b)) == Cost(Line(p, a)) + Cost(Line(p, b))
  {
    var x := p.price.GetOr(0.0);
    assert x * (a + b) as real == x * a as real + x * b as real;
  }

  /** Adding a priced product to a fully priced cart keeps it fully priced. */
  lemma AddKeepsPriced(cart: seq<Line>, product: Product, qty: int, addMode: bool)
    requires AllPriced(cart) && product.price.Some?
    ensures AllPriced(AddToCart(cart, product, qty, addMode))
  {
    var r := AddToCart(cart, product, qty, addMode);
    if qty > 0 && !HasId(cart, product.id) {
      assert forall i :: 0 <= i < |cart| ==> r[i] == cart[i];
    } else if qty > 0 {
      var k := FindLine(cart, product.id).value;
      assert forall i :: 0 <= i < |r| ==> r[i].product == cart[i].product;
    }
  }

  // ---------------------------------------------------------------------
  // remove_from_cart

  /** Removal distributes over concatenation: each part keeps its own
      surviving lines, in order. */
  lemma {:induction false} RemoveAppend(a: seq<Line>, b: seq<Line>, id: Key)
    ensures RemoveFromCart(a + b, id) == RemoveFromCart(a, id) + RemoveFromCart(b, id)
  {
    if |a| == 0 {
      assert a + b == b;
    } else {
      assert (a + b)[0] == a[0];
      assert (a + b)[1..] == a[1..] + b;
      RemoveAppend(a[1..], b, id);
    }
  }

  /** A single line survives removal exactly when its id differs. */
  lemma RemoveSingle(l: Line, id: Key)
    ensures RemoveFromCart([l], id) == if l.product.id == id then [] else [l]
  {
    assert [l][1..] == [];
  }

  /** Removing twice is the same as removing once. */
  lemma RemoveIdempotent(cart: seq<Line>, id: Key)
    ensures RemoveFromCart(RemoveFromCart(cart, id), id) == RemoveFromCart(cart, id)
  {
  }

  /** Removal leaves nothing under `id` and every other id's quantity as it was. */
  lemma {:induction false} RemoveQty(cart: seq<Line>, id: Key, other: Key)
    ensures QtyOf(RemoveFromCart(cart, id), id) == 0
    ensures other != id ==> QtyOf(RemoveFromCart(cart, id), other) == QtyOf(cart, other)
  {
    if |cart| > 0 {
      RemoveQty(cart[1..], id, other);
      var rest := RemoveFromCart(cart[1..], id);
      if cart[0].product.id != id {
        assert ([cart[0]] + rest)[1..] == rest;
      }
    }
  }

  /** The ids after removal are the ids before, less `id`. */
  lemma RemoveIds(cart: seq<Line>, id: Key)
    ensures Ids(RemoveFromCart(cart, id)) == Ids(cart) - {id}
  {
    var r := RemoveFromCart(cart, id);
    forall k ensures HasId(r, k) <==> HasId(cart, k) && k != id {
      if HasId(r, k) {
        var i :| 0 <= i < |r| && r[i].product.id == k;
        var j :| 0 <= j < |cart| && cart[j] == r[i];
      }
      if HasId(cart, k) && k != id {
        RemoveQty(cart, id, k);
        assert QtyOf(r, k) == QtyOf(cart, k);
        RemoveKeepsLine(cart, id, k);
      }
    }
  }

  /** A line whose id is not removed survives removal. */
  lemma {:induction false} RemoveKeepsLine(cart: seq<Line>, id: Key, k: Key)
    requires HasId(cart, k) && k != id
    ensures HasId(RemoveFromCart(cart, id), k)
  {
    var rest := RemoveFromCart(cart[1..], id);
    if cart[0].product.id == k {
      assert ([cart[0]] + rest)[0].product.id == k;
    } else {
      assert HasId(cart[1..], k) by {
        var i :| 0 <= i < |cart| && cart[i].product.id == k;
        assert cart[1..][i - 1].product.id == k;
      }
      RemoveKeepsLine(cart[1..], id, k);
      var i :| 0 <= i < |rest| && rest[i].product.id == k;
      if cart[0].product.id != id {
        assert ([cart[0]] + rest)[i + 1].product.id == k;
      }
    }
  }

  /** Removal keeps ids unique: it only drops lines. */
  lemma {:induction false} RemoveKeepsUnique(cart: seq<Line>, id: Key)
    requires UniqueIds(cart)
    ensures UniqueIds(RemoveFromCart(cart, id))
  {
    if |cart| > 0 {
      var rest := RemoveFromCart(cart[1..], id);
      assert UniqueIds(cart[1..]) by {
        forall i, j | 0 <= i < j < |cart[1..]|
          ensures cart[1..][i].product.id != cart[1..][j].product.id
        {
          assert cart[1..][i] == cart[i + 1] && cart[1..][j] == cart[j + 1];
        }
      }
      RemoveKeepsUnique(cart[1..], id);
      if cart[0].product.id != id {
        var r := [cart[0]] + rest;
        forall i, j | 0 <= i < j < |r| ensures r[i].product.id != r[j].product.id {
          if i == 0 {
            assert r[j] == rest[j - 1];
            assert rest[j - 1] in cart[1..];
            var k :| 0 <= k < |cart[1..]| && cart[1..][k] == rest[j - 1];
            assert cart[k + 1] == rest[j - 1];
          } else {
            assert r[i] == rest[i - 1] && r[j] == rest[j - 1];
          }
        }
      }
    }
  }

  /** Removal drops exactly the cost of the removed lines; removing an absent
      id leaves the total as it was. */
  lemma {:induction false} RemoveCost(cart: seq<Line>, id: Key)
    ensures SumCost(RemoveFromCart(cart, id)) == SumCost(cart) - SumCostOf(cart, id)
  {
    if |cart| > 0 {
      RemoveCost(cart[1..], id);
      var rest := RemoveFromCart(cart[1..], id);
      if cart[0].product.id != id {
        assert ([cart[0]] + rest)[1..] == rest;
      }
    }
  }

  /** Σ price × qty over the lines with `id`. */
  function SumCostOf(cart: seq<Line>, id: Key): real {
    if |cart| == 0 then 0.0
    else (if cart[0].product.id == id then Cost(cart[0]) else 0.0) + SumCostOf(cart[1..], id)
  }

  // ---------------------------------------------------------------------
  // set_cart_qty and sequences of operations

  /** `set_cart_qty` on a cart with unique ids leaves exactly `qty` under the
      product's id when `qty` is positive and nothing otherwise, leaves every
      other id's quantity alone, and keeps ids unique. */
  lemma SetQtyExact(cart: seq<Line>, product: Product, qty: int, other: Key)
    requires UniqueIds(cart)
    ensures UniqueIds(SetCartQty(cart, product, qty))
    ensures QtyOf(SetCartQty(cart, product, qty), product.id) == if qty > 0 then qty else 0
    ensures other != product.id ==> QtyOf(SetCartQty(cart, product, qty), other) == QtyOf(cart, other)
  {
    if qty > 0 {
      AddKeepsUnique(cart, product, qty, false);
      AddReplaces(cart, product, qty, product.id);
      AddReplaces(cart, product, qty, other);
    } else {
      RemoveKeepsUnique(cart, product.id);
      RemoveQty(cart, product.id, product.id);
      RemoveQty(cart, product.id, other);
    }
  }

  /** Adding 5 and then 3 of the same product leaves one line of 8. */
  lemma AccumulateScenario(p: Product)
    ensures AddToCart(AddToCart([], p, 5, true), p, 3, true) == [Line(p, 8)]
  {
    assert AddToCart([], p, 5, true) == [Line(p, 5)];
    assert FindLine([Line(p, 5)], p.id) == Some(0);
  }

  /** Setting the quantity of a product in the cart to 0 removes its line. */
  lemma SetZeroScenario(p: Product, q: Product)
    requires p.id != q.id
    ensures SetCartQty([Line(q, 1), Line(p, 4)], p, 0) == [Line(q, 1)]
  {
    assert [Line(q, 1), Line(p, 4)][1..] == [Line(p, 4)];
    RemoveSingle(Line(p, 4), p.id);
  }

  /** The cart operations a session can issue. */
  datatype CartOp =
    | Add(product: Product, qty: int, addMode: bool)
    | SetQty(product: Product, qty: int)
    | Remove(id: Key)

  function Apply(cart: seq<Line>, op: CartOp): seq<Line> {
    match op
    case Add(p, q, m) => AddToCart(cart, p, q, m)
    case SetQty(p, q) => SetCartQty(cart, p, q)
    case Remove(id) => RemoveFromCart(cart, id)
  }

  function ApplyAll(cart: seq<Line>, ops: seq<CartOp>): seq<Line>
    decreases |ops|
  {
    if |ops| == 0 then cart else ApplyAll(Apply(cart, ops[0]), ops[1..])
  }

  /** No sequence of add, set-quantity and remove calls ever puts two lines
      with the same id into a cart that had unique ids. */
  lemma {:induction false} ApplyAllKeepsUnique(cart: seq<Line>, ops: seq<CartOp>)
    requires UniqueIds(cart)
    ensures UniqueIds(ApplyAll(cart, ops))
    decreases |ops|
  {
    if |ops| > 0 {
      match ops[0] {
        case Add(p, q, m) => AddKeepsUnique(cart, p, q, m);
        case SetQty(p, q) => SetQtyExact(cart, p, q, p.id);
        case Remove(id) => RemoveKeepsUnique(cart, id);
      }
      ApplyAllKeepsUnique(Apply(cart, ops[0]), ops[1..]);
    }
  }
}

=== FILE: contract.dfy ===
/** The contract table of `backend/pdf_generator.py` (`create_table`): a
    fixed header row, one row per item in input order, and the grand total
    as the sum of the line totals. */
module Contract {
  import opened Wrappers
  import opened Cart
  import opened Orders

  /** One record handed to the contract generator. `quantity` is the key the
      table reads; `qty` is the key the cart, the search results and the
      module's own sample data use for the same count. */
  datatype ContractItem = ContractItem(
    id: Option<string>,
    name: Option<string>,
    quantity: Option<int>,
    price: Option<real>,
    qty: Option<int>)

  /** A table cell; `Blank` is a Python `None`. */
  datatype Cell = Label(text: string) | Number(amount: real) | Blank

  const Header: seq<Cell> :=
    [Label("Product ID"), Label("Name"), Label("Quantity"), Label("Unit Price (\U{20AC})"), Label("Line Total (\U{20AC})")]

  /** Which keys the table reads the count from: as written only `quantity`;
      corrected, `quantity` and failing that `qty`. */
  datatype CountKey = QuantityOnly | QuantityOrQty

  function Count(item: ContractItem, key: CountKey): (c: Option<int>)
    ensures item.quantity.Some? ==> c == item.quantity
    ensures key == QuantityOnly ==> c == item.quantity
    ensures key == QuantityOrQty && item.quantity.None? ==> c == item.qty
  {
    match key
    case QuantityOnly => item.quantity
    case QuantityOrQty => if item.quantity.Some? then item.quantity else item.qty
  }

  /** quantity × price, an absent count or price counting as 0. */
  function LineTotal(item: ContractItem, key: CountKey): (t: real)
    ensures Count(item, key).None? || item.price.None? ==> t == 0.0
    ensures Count(item, key).Some? && item.price.Some? ==>
      t == Count(item, key).value as real * item.price.value
  {
    Count(item, key).GetOr(0) as real * item.price.GetOr(0.0)
  }

  function TextCell(v: Option<string>): Cell {
    match v
    case Some(s) => Label(s)
    case None => Blank
  }

  function NumberCell(v: Option<real>): Cell {
    match v
    case Some(x) => Number(x)
    case None => Blank
  }

  function CountCell(v: Option<int>): Cell {
    match v
    case Some(n) => Number(n as real)
    case None => Blank
  }

  /** The row of one item: id, name, count and price as given, then the line total. */
  function Row(item: ContractItem, key: CountKey): (row: seq<Cell>)
    ensures |row| == 5
    ensures row[0] == TextCell(item.id) && row[1] == TextCell(item.name)
    ensures row[2] == CountCell(Count(item, key)) && row[3] == NumberCell(item.price)
    ensures row[4] == Number(LineTotal(item, key))
  {
    [TextCell(item.id), TextCell(item.name), CountCell(Count(item, key)), NumberCell(item.price),
     Number(LineTotal(item, key))]
  }

  /** Σ line total over the items. */
  function GrandTotal(data: seq<ContractItem>, key: CountKey): (r: real)
    ensures |data| == 0 ==> r == 0.0
    ensures |data| == 1 ==> r == LineTotal(data[0], key)
  {
    if |data| == 0 then 0.0 else LineTotal(data[0], key) + GrandTotal(data[1..], key)
  }

  lemma {:induction false} GrandTotalSnoc(data: seq<ContractItem>, item: ContractItem, key: CountKey)
    ensures GrandTotal(data + [item], key) == GrandTotal(data, key) + LineTotal(item, key)
  {
    if |data| == 0 {
      assert (data + [item])[1..] == [];
    } else {
      assert (data + [item])[1..] == data[1..] + [item];
      GrandTotalSnoc(data[1..], item, key);
    }
  }

  /** The table, one row per record after the header, and the running
      total the source's loop accumulates. */
  method BuildTable(data: seq<ContractItem>, key: CountKey) returns (table: seq<seq<Cell>>, total: real)
    ensures |table| == |data| + 1
    ensures table[0] == Header
    ensures forall i :: 0 <= i < |data| ==> table[i + 1] == Row(data[i], key)
    ensures total == GrandTotal(data, key)
  {
    table := [Header] + seq(|data|, k requires 0 <= k < |data| => Row(data[k], key));
    total := 0.0;
    var i := 0;
    while i < |data|
      invariant 0 <= i <= |data|
      invariant total == GrandTotal(data[..i], key)
    {
      GrandTotalSnoc(data[..i], data[i], key);
      assert data[..i + 1] == data[..i] + [data[i]];
      total := total + LineTotal(data[i], key);
      i := i + 1;
    }
    assert data[..i] == data;
  }

  /** `create_table(data)` as written: the count is read from `quantity` only. */
  method CreateTable(data: seq<ContractItem>) returns (table: seq<seq<Cell>>, total: real)
    ensures |table| == |data| + 1 && table[0] == Header
    ensures forall i :: 0 <= i < |data| ==> table[i + 1] == Row(data[i], QuantityOnly)
    ensures total == GrandTotal(data, QuantityOnly)
    ensures |data| == 0 ==> total == 0.0
  {
    table, total := BuildTable(data, QuantityOnly);
  }

  /** `create_table(data)` reading the count from `quantity`, else from `qty`. */
  method CreateTableCorrected(data: seq<ContractItem>) returns (table: seq<seq<Cell>>, total: real)
    ensures |table| == |data| + 1 && table[0] == Header
    ensures forall i :: 0 <= i < |data| ==> table[i + 1] == Row(data[i], QuantityOrQty)
    ensures total == GrandTotal(data, QuantityOrQty)
    ensures |data| == 0 ==> total == 0.0
  {
    table, total := BuildTable(data, QuantityOrQty);
  }

  /** As written, records that key their count as `qty` add nothing to the
      total, whatever their prices. */
  lemma {:induction false} QtyKeyedItemsAddNothing(data: seq<ContractItem>)
    requires forall i :: 0 <= i < |data| ==> data[i].quantity.None?
    ensures GrandTotal(data, QuantityOnly) == 0.0
  {
    if |data| > 0 {
      assert forall i :: 0 <= i < |data[1..]| ==> data[1..][i] == data[i + 1];
      QtyKeyedItemsAddNothing(data[1..]);
    }
  }

  /** The first record of the module's sample data: 50 screws at 0.08. As
      written its row has no quantity and a line total of 0; corrected the
      line total is 4. */
  lemma SampleRecordTotals()
    ensures var item := ContractItem(Some("C001"), Some("Schraube TX20 4x40"), None, Some(0.08), Some(50));
      && GrandTotal([item], QuantityOnly) == 0.0
      && Row(item, QuantityOnly)[2] == Blank
      && GrandTotal([item], QuantityOrQty) == 4.0
  {
    var item := ContractItem(Some("C001"), Some("Schraube TX20 4x40"), None, Some(0.08), Some(50));
    assert [item][1..] == [];
  }

  /** A cart line as a contract record: the cart keys its count as `qty`. */
  function FromLine(l: Line): ContractItem {
    ContractItem(l.product.id, l.product.name, None, l.product.price, Some(l.qty))
  }

  function FromLines(lines: seq<Line>): (data: seq<ContractItem>)
    ensures |data| == |lines|
    ensures forall i :: 0 <= i < |lines| ==> data[i] == FromLine(lines[i])
  {
    seq(|lines|, i requires 0 <= i < |lines| => FromLine(lines[i]))
  }

  /** Read through the corrected count, the contract of any line snapshot
      totals exactly Σ price × qty of the lines. */
  lemma {:induction false} ContractTotalOfLines(lines: seq<Line>)
    requires AllPriced(lines)
    ensures GrandTotal(FromLines(lines), QuantityOrQty) == SumCost(lines)
  {
    if |lines| > 0 {
      assert FromLines(lines)[1..] == FromLines(lines[1..]);
      assert AllPriced(lines[1..]) by {
        assert forall i :: 0 <= i < |lines[1..]| ==> lines[1..][i] == lines[i + 1];
      }
      ContractTotalOfLines(lines[1..]);
      var l := lines[0];
      assert LineTotal(FromLine(l), QuantityOrQty) == l.qty as real * l.product.price.value;
    }
  }

  /** If a freshly placed order's items were passed to the contract
      generator, the contract would total the order's stored total when the
      count is read correctly, and 0 as written. */
  lemma PlacedOrderContract(s: Session, number: OrderNumber, date: string)
    requires PlaceOrder(s, number, date).Success?
    ensures var o := PlaceOrder(s, number, date).value.session.orders[0];
      && GrandTotal(FromLines(o.items), QuantityOrQty) == o.total
      && GrandTotal(FromLines(o.items), QuantityOnly) == 0.0
  {
    var o := PlaceOrder(s, number, date).value.session.orders[0];
    ContractTotalOfLines(o.items);
    QtyKeyedItemsAddNothing(FromLines(o.items));
  }
}

=== FILE: dashboard.dfy ===
/** The product search of `Frontend/views/dashboard.py`: a reply is turned
    into recommendations with the defaults of the view's `.get` calls, each is
    classified by stock, their subtotals give the total estimate, and
    "Add All to Cart" adds them one by one. */
module Dashboard {
  import opened Wrappers
  import opened Cart
  import opened Backend

  /** Lead time shown when the backend gives none. */
  const DefaultLeadTimeDays: int := 7

  /** A search result: the product record placed in the cart, plus the
      quantity to order, copied from `anzahl` without a default. */
  datatype Recommendation = Recommendation(product: Product, qty: Option<int>)

  /** The product record built from one backend item. The id, name, price,
      category and supplier are copied as they are (absent stays absent);
      the subtotal treats an absent price or quantity as 0; stock defaults
      to 0, the quantity still to order to `anzahl` (else 0), the preferred
      flag to false and the lead time to 7 days. */
  function ToRecommendation(a: ApiItem): (r: Recommendation)
    ensures r.product.id == a.artikelId && r.product.name == a.artikelname
    ensures r.product.price == a.preisStk && r.qty == a.anzahl
    ensures r.product.details.Searched?
    ensures r.product.details.category == a.kategorie && r.product.details.supplier == a.lieferant
    ensures a.preisStk.Some? && a.anzahl.Some? ==>
      r.product.details.subtotal == a.preisStk.value * a.anzahl.value as real
    ensures a.preisStk.None? || a.anzahl.None? ==> r.product.details.subtotal == 0.0
    ensures a.lagerbestand.None? ==> r.product.details.stock == 0
    ensures a.needsOrder.None? && a.anzahl.Some? ==> r.product.details.needsOrder == a.anzahl.value
    ensures a.needsOrder.None? && a.anzahl.None? ==> r.product.details.needsOrder == 0
    ensures a.isPreferred.None? ==> !r.product.details.preferred
    ensures a.leadTimeDays.None? ==> r.product.details.leadTimeDays == DefaultLeadTimeDays
    ensures a.lagerbestand.Some? ==> r.product.details.stock == a.lagerbestand.value
    ensures a.needsOrder.Some? ==> r.product.details.needsOrder == a.needsOrder.value
    ensures a.isPreferred.Some? ==> r.product.details.preferred == a.isPreferred.value
    ensures a.leadTimeDays.Some? ==> r.product.details.leadTimeDays == a.leadTimeDays.value
  {
    var details := Searched(
      a.kategorie,
      a.lieferant,
      a.preisStk.GetOr(0.0) * a.anzahl.GetOr(0) as real,
      a.lagerbestand.GetOr(0),
      a.needsOrder.GetOr(a.anzahl.GetOr(0)),
      a.isPreferred.GetOr(false),
      a.leadTimeDays.GetOr(DefaultLeadTimeDays));
    Recommendation(Product(a.artikelId, a.artikelname, a.preisStk, details), a.anzahl)
  }

  /** One recommendation per backend item, in the items' order. */
  function Normalize(items: seq<ApiItem>): (recs: seq<Recommendation>)
    ensures |recs| == |items|
    ensures forall i :: 0 <= i < |items| ==> recs[i] == ToRecommendation(items[i])
  {
    seq(|items|, i requires 0 <= i < |items| => ToRecommendation(items[i]))
  }

  /** `st.session_state.search_results` once a search is stored. */
  datatype SearchResults = SearchResults(
    explanation: string,
    recommendations: seq<Recommendation>,
    requireApproval: bool)

  /** The search results a reply leaves behind: none unless the request
      succeeded and the body has both `items` and `explanation`. */
  function Interpret(reply: SearchReply): (r: Option<SearchResults>)
    ensures r.Some? <==>
      reply.Received? && reply.payload.items.Some? && reply.payload.explanation.Some?
    ensures r.Some? ==>
      && r.value.explanation == reply.payload.explanation.value
      && r.value.recommendations == Normalize(reply.payload.items.value)
      && r.value.requireApproval == (reply.payload.requireApproval == Some(true))
  {
    match reply
    case Received(p) =>
      if p.items.Some? && p.explanation.Some? then
        Some(SearchResults(p.explanation.value, Normalize(p.items.value), p.requireApproval.GetOr(false)))
      else None
    case RequestFailed(_) => None
    case ProcessingFailed(_) => None
  }

  /** The search part of the session state. */
  datatype SearchState = SearchState(lastQuery: string, results: Option<SearchResults>)

  /** Pressing "Search": with an empty query nothing happens; otherwise the
      query is remembered and the results are replaced by what the reply
      yields, so a failed request or a malformed body clears them. */
  function Search(st: SearchState, query: string, reply: SearchReply): (r: SearchState)
    ensures query == "" ==> r == st
    ensures query != "" ==> r.lastQuery == query && r.results == Interpret(reply)
    ensures query != "" && !reply.Received? ==> r.results.None?
  {
    if query == "" then st else SearchState(query, Interpret(reply))
  }

  /** "Clear Results", shown only while results are stored. */
  function ClearResults(st: SearchState): (r: SearchState)
    ensures r.results.None?
    ensures st.results.Some? ==> r.lastQuery == ""
    ensures st.results.None? ==> r == st
  {
    if st.results.Some? then SearchState("", None) else st
  }

  datatype StockStatus = InStock | LowStock | MustOrder

  /** The inventory badge: in stock when the stock covers the quantity, low
      when some but not enough is there, and to be ordered otherwise. */
  function StockStatusOf(stock: int, qty: int): (s: StockStatus)
    ensures s == InStock <==> stock >= qty
    ensures s == LowStock <==> stock < qty && stock > 0
    ensures s == MustOrder <==> stock < qty && stock <= 0
  {
    if stock >= qty then InStock else if stock > 0 then LowStock else MustOrder
  }

  /** The badge of a recommendation; comparing the stock with an absent
      quantity raises in Python, so there is then no badge. */
  function RecStockStatus(rec: Recommendation): (s: Option<StockStatus>)
    requires rec.product.details.Searched?
    ensures s.None? <==> rec.qty.None?
    ensures s.Some? ==> s.value == StockStatusOf(rec.product.details.stock, rec.qty.value)
  {
    match rec.qty
    case None => None
    case Some(q) => Some(StockStatusOf(rec.product.details.stock, q))
  }

  /** The subtotal a recommendation shows. */
  function Subtotal(rec: Recommendation): real {
    if rec.product.details.Searched? then rec.product.details.subtotal else 0.0
  }

  /** "Total Estimate": Σ of the recommendations' subtotals. */
  function TotalEstimate(recs: seq<Recommendation>): (r: real)
    ensures |recs| == 0 ==> r == 0.0
    ensures |recs| == 1 ==> r == Subtotal(recs[0])
  {
    if |recs| == 0 then 0.0 else Subtotal(recs[0]) + TotalEstimate(recs[1..])
  }

  /** The estimate of a reply's items is Σ `preis_stk` × `anzahl` over them,
      each absent field counting as 0. */
  lemma {:induction false} EstimateOfItems(items: seq<ApiItem>)
    ensures TotalEstimate(Normalize(items)) == ItemsEstimate(items)
  {
    if |items| > 0 {
      assert Normalize(items)[1..] == Normalize(items[1..]);
      EstimateOfItems(items[1..]);
    }
  }

  function ItemsEstimate(items: seq<ApiItem>): real {
    if |items| == 0 then 0.0
    else items[0].preisStk.GetOr(0.0) * items[0].anzahl.GetOr(0) as real + ItemsEstimate(items[1..])
  }

  datatype AddError = MissingQuantity

  /** The per-recommendation "Add" button: `add_to_cart(rec, rec["qty"])` in
      add mode; an absent quantity raises at the `qty > 0` test. */
  function AddRecommendation(cart: seq<Line>, rec: Recommendation): (r: Result<seq<Line>, AddError>)
    ensures r.Failure? <==> rec.qty.None?
    ensures r.Success? ==> r.value == AddToCart(cart, rec.product, rec.qty.value, true)
  {
    match rec.qty
    case None => Failure(MissingQuantity)
    case Some(q) => Success(AddToCart(cart, rec.product, q, true))
  }

  /** The cart after "Add All to Cart", and whether the loop ran to the end. */
  datatype AddAllOutcome = AddAllOutcome(cart: seq<Line>, completed: bool)

  /** "Add All to Cart": each recommendation in order, stopping at the first
      one whose quantity is absent; the lines added before it stay. */
  function AddAll(cart: seq<Line>, recs: seq<Recommendation>): (r: AddAllOutcome)
    ensures r.completed <==> forall i :: 0 <= i < |recs| ==> recs[i].qty.Some?
    ensures UniqueIds(cart) ==> UniqueIds(r.cart)
    ensures |recs| == 0 ==> r == AddAllOutcome(cart, true)
    decreases |recs|
  {
    if |recs| == 0 then AddAllOutcome(cart, true)
    else match AddRecommendation(cart, recs[0])
      case Failure(_) => AddAllOutcome(cart, false)
      case Success(next) =>
        AddKeepsUnique(cart, recs[0].product, recs[0].qty.value, true);
        var r := AddAll(next, recs[1..]);
        assert forall i :: 1 <= i < |recs| ==> recs[i] == recs[1..][i - 1];
        r
  }

  /** The number of recommendations before the first one whose quantity is
      absent: how far "Add All to Cart" gets. */
  function FirstMissing(recs: seq<Recommendation>): (k: nat)
    ensures k <= |recs|
    ensures forall i :: 0 <= i < k ==> recs[i].qty.Some?
    ensures k < |recs| ==> recs[k].qty.None?
  {
    if |recs| == 0 || recs[0].qty.None? then 0 else 1 + FirstMissing(recs[1..])
  }

  /** Σ of the positive quantities of the recommendations whose product id is `id`. */
  function RecsQty(recs: seq<Recommendation>, id: Key): int {
    if |recs| == 0 then 0
    else
      var q := recs[0].qty.GetOr(0);
      (if recs[0].product.id == id && q > 0 then q else 0) + RecsQty(recs[1..], id)
  }

  /** A run that stops leaves the cart exactly as adding the recommendations
      before the first absent quantity leaves it, and that shorter run
      completes. */
  lemma {:induction false} AddAllStopsAtMissing(cart: seq<Line>, recs: seq<Recommendation>)
    ensures var k := FirstMissing(recs);
      && AddAll(cart, recs[..k]).completed
      && AddAll(cart, recs).cart == AddAll(cart, recs[..k]).cart
    decreases |recs|
  {
    var k := FirstMissing(recs);
    if |recs| == 0 || recs[0].qty.None? {
      assert recs[..k] == [];
    } else {
      var next := AddToCart(cart, recs[0].product, recs[0].qty.value, true);
      assert recs[..k][0] == recs[0];
      assert recs[..k][1..] == recs[1..][..k - 1];
      AddAllStopsAtMissing(next, recs[1..]);
    }
  }

  /** A run over recommendations that all have a quantity raises the
      quantity under each id by the sum of the positive quantities of the
      recommendations with that id. */
  lemma {:induction false} AddAllQty(cart: seq<Line>, recs: seq<Recommendation>, id: Key)
    requires forall i :: 0 <= i < |recs| ==> recs[i].qty.Some?
    ensures QtyOf(AddAll(cart, recs).cart, id) == QtyOf(cart, id) + RecsQty(recs, id)
    decreases |recs|
  {
    if |recs| > 0 {
      var p := recs[0].product;
      var q := recs[0].qty.value;
      var next := AddToCart(cart, p, q, true);
      if q > 0 {
        AddAccumulates(cart, p, q, id);
      }
      assert forall i :: 0 <= i < |recs[1..]| ==> recs[1..][i] == recs[i + 1];
      AddAllQty(next, recs[1..], id);
    }
  }

  /** Whatever the recommendations, "Add All to Cart" raises the quantity
      under each id by the positive quantities of the recommendations with
      that id that come before the first absent quantity. */
  lemma AddAllQtyAnyRun(cart: seq<Line>, recs: seq<Recommendation>, id: Key)
    ensures QtyOf(AddAll(cart, recs).cart, id)
         == QtyOf(cart, id) + RecsQty(recs[..FirstMissing(recs)], id)
  {
    var k := FirstMissing(recs);
    AddAllStopsAtMissing(cart, recs);
    assert forall i :: 0 <= i < k ==> recs[..k][i] == recs[i];
    AddAllQty(cart, recs[..k], id);
  }

  /** A recommendation whose price and positive quantity were both given. */
  predicate Orderable(rec: Recommendation) {
    && rec.qty.Some? && rec.qty.value > 0 && rec.product.price.Some?
    && rec.product.details.Searched?
    && rec.product.details.subtotal == Cost(Line(rec.product, rec.qty.value))
  }

  /** Every backend item with a price and a positive quantity yields an
      orderable recommendation. */
  lemma ToRecommendationOrderable(a: ApiItem)
    requires a.preisStk.Some? && a.anzahl.Some? && a.anzahl.value > 0
    ensures Orderable(ToRecommendation(a))
  {
  }

  /** Adding all orderable recommendations with distinct ids, none of them
      already in the cart, completes and raises the cart's cost by exactly
      the total estimate. */
  lemma {:induction false} AddAllMatchesEstimate(cart: seq<Line>, recs: seq<Recommendation>)
    requires forall i :: 0 <= i < |recs| ==> Orderable(recs[i])
    requires forall i :: 0 <= i < |recs| ==> !HasId(cart, recs[i].product.id)
    requires forall i, j :: 0 <= i < j < |recs| ==> recs[i].product.id != recs[j].product.id
    ensures AddAll(cart, recs).completed
    ensures SumCost(AddAll(cart, recs).cart) == SumCost(cart) + TotalEstimate(recs)
    decreases |recs|
  {
    if |recs| > 0 {
      var rec := recs[0];
      var q := rec.qty.value;
      var next := AddToCart(cart, rec.product, q, true);
      AddCostFresh(cart, rec.product, q, true);
      AddIds(cart, rec.product, q, true);
      var rest := recs[1..];
      assert forall i :: 0 <= i < |rest| ==> rest[i] == recs[i + 1];
      forall i | 0 <= i < |rest| ensures !HasId(next, rest[i].product.id) {
        assert rest[i].product.id !in Ids(next);
      }
      AddAllMatchesEstimate(next, rest);
    }
  }

  /** Adding all orderable search results to an empty cart gives a cart
      whose total is the estimate shown. */
  lemma AddAllToEmptyCartTotal(items: seq<ApiItem>)
    requires forall i :: 0 <= i < |items| ==>
      items[i].preisStk.Some? && items[i].anzahl.Some? && items[i].anzahl.value > 0
    requires forall i, j :: 0 <= i < j < |items| ==> items[i].artikelId != items[j].artikelId
    ensures AddAll([], Normalize(items)).completed
    ensures CalculateTotal(AddAll([], Normalize(items)).cart) == Some(ItemsEstimate(items))
  {
    var recs := Normalize(items);
    forall i | 0 <= i < |recs| ensures Orderable(recs[i]) {
      ToRecommendationOrderable(items[i]);
    }
    AddAllMatchesEstimate([], recs);
    AddAllKeepsPriced([], recs);
    EstimateOfItems(items);
  }

  /** Adding recommendations that all carry a price keeps a priced cart priced. */
  lemma {:induction false} AddAllKeepsPriced(cart: seq<Line>, recs: seq<Recommendation>)
    requires AllPriced(cart)
    requires forall i :: 0 <= i < |recs| ==> recs[i].product.price.Some?
    ensures AllPriced(AddAll(cart, recs).cart)
    decreases |recs|
  {
    if |recs| > 0 && recs[0].qty.Some? {
      AddKeepsPriced(cart, recs[0].product, recs[0].qty.value, true);
      assert forall i :: 0 <= i < |recs[1..]| ==> recs[1..][i] == recs[i + 1];
      AddAllKeepsPriced(AddToCart(cart, recs[0].product, recs[0].qty.value, true), recs[1..]);
    }
  }
}

=== FILE: image_search.dfy ===
/** The image search of `Frontend/views/image_search.py`: a chat with the
    image-analysis backend (a message list plus a pending flag), the media
    type sent with the upload, and the mapping of recommended items into
    the cart. */
module ImageSearch {
  import opened Wrappers
  import opened Cart
  import opened Backend
  import Text

  datatype Role = User | Assistant

  datatype Message = Message(role: Role, content: string)

  /** The stored upload: its base64 text, media type and file name. */
  datatype Upload = Upload(encoded: string, mediaType: string, name: string)

  /** The image-search part of the session state. */
  datatype ImageChat = ImageChat(
    messages: seq<Message>,
    pending: bool,
    recommendations: Option<ImageRecs>,
    upload: Option<Upload>)

  const AnalyzePrompt: string := "Please analyze this image and identify what materials I need to order."
  const DefaultExplanation: string := "Here are my recommendations:"
  const Tick: string := "\U{2705} "
  const Cross: string := "\U{274C} "
  const BoltIcon: string := "\U{1F529}"

  /** The assistant message a reply appends, if any. */
  function ReplyText(reply: ImageReply): (t: Option<string>)
    ensures t.None? <==> reply.Answered? && reply.body.Unrecognised?
  {
    match reply
    case Answered(Question(q)) => Some(q)
    case Answered(Recommendations(recs)) => Some(Tick + recs.explanation.GetOr(DefaultExplanation))
    case Answered(ErrorBody(m)) => Some(Cross + "Error: " + m)
    case Answered(Unrecognised(_)) => None
    case NotOk(code) => Some(Cross + "Backend Error: " + Text.NatToString(code))
    case Unreachable(e) => Some(Cross + "Could not connect to backend: " + e)
  }

  /** `process_image_response()` with the reply as input. A question, a
      recommendation, an error body, a non-ok status and an exception each
      append one assistant message; an unrecognised type appends none. Only
      a recommendation replaces the stored recommendations, and the pending
      flag is cleared whatever happened. */
  function ProcessImageResponse(chat: ImageChat, reply: ImageReply): (r: ImageChat)
    ensures !r.pending
    ensures r.upload == chat.upload
    ensures |r.messages| == |chat.messages| + (if reply.Answered? && reply.body.Unrecognised? then 0 else 1)
    ensures r.messages[..|chat.messages|] == chat.messages
    ensures |r.messages| > |chat.messages| ==> r.messages[|chat.messages|].role == Assistant
    ensures reply.Answered? && reply.body.Recommendations? ==>
      && r.recommendations == Some(reply.body.recs)
      && r.messages[|chat.messages|].content == Tick + reply.body.recs.explanation.GetOr(DefaultExplanation)
    ensures !(reply.Answered? && reply.body.Recommendations?) ==> r.recommendations == chat.recommendations
    ensures reply.Answered? && reply.body.Question? ==>
      r.messages[|chat.messages|].content == reply.body.question
  {
    var messages := match ReplyText(reply)
      case None => chat.messages
      case Some(t) => chat.messages + [Message(Assistant, t)];
    var recommendations := match reply
      case Answered(Recommendations(recs)) => Some(recs)
      case _ => chat.recommendations;
    ImageChat(messages, false, recommendations, chat.upload)
  }

  /** `add_user_message(text)`: one user message at the end, and a reply pending. */
  function AddUserMessage(chat: ImageChat, text: string): (r: ImageChat)
    ensures r.messages == chat.messages + [Message(User, text)]
    ensures r.pending
    ensures r.recommendations == chat.recommendations && r.upload == chat.upload
  {
    chat.(messages := chat.messages + [Message(User, text)], pending := true)
  }

  /** "Send": the reply box text, stripped, becomes a user message unless
      nothing but white space was typed. */
  function Send(chat: ImageChat, input: string): (r: ImageChat)
    ensures Text.AllSpace(input) ==> r == chat
    ensures !Text.AllSpace(input) ==> r == AddUserMessage(chat, Text.Strip(input))
    ensures !Text.AllSpace(input) ==>
      var sent := r.messages[|r.messages| - 1].content;
      |sent| > 0 && !Text.IsSpace(sent[0]) && !Text.IsSpace(sent[|sent| - 1])
  {
    var text := Text.Strip(input);
    if |text| > 0 then AddUserMessage(chat, text) else chat
  }

  /** "Analyze Image": the conversation restarts with the fixed prompt. */
  function Analyze(chat: ImageChat): (r: ImageChat)
    ensures r.messages == [Message(User, AnalyzePrompt)] && r.pending
    ensures r.recommendations == chat.recommendations && r.upload == chat.upload
  {
    chat.(messages := [Message(User, AnalyzePrompt)], pending := true)
  }

  /** "Clear": conversation, recommendations, pending flag and upload are reset. */
  function ClearChat(chat: ImageChat): (r: ImageChat)
    ensures r.messages == [] && !r.pending && r.recommendations.None? && r.upload.None?
  {
    ImageChat([], false, None, None)
  }

  /** The media type sent with the upload: the type the browser reported when
      it is non-empty, else `image/<ext>` for a png, jpg or jpeg file name
      extension (in any letter case), else `image/jpeg`. */
  function MediaType(reported: Option<string>, fileName: string): (m: string)
    ensures reported.Some? && reported.value != "" ==> m == reported.value
    ensures !(reported.Some? && reported.value != "") ==>
      m == "image/png" || m == "image/jpg" || m == "image/jpeg"
  {
    if reported.Some? && reported.value != "" then reported.value
    else
      var ext := Text.Lower(Text.AfterLastDot(fileName));
      if ext == "png" || ext == "jpg" || ext == "jpeg" then "image/" + ext else "image/jpeg"
  }

  /** Without a reported type, a file named `stem.ext` whose extension is
      png, jpg or jpeg in any case gets `image/` plus the lower-cased
      extension, and any other extension gets `image/jpeg`. */
  lemma MediaTypeFromExtension(stem: string, ext: string)
    requires forall i :: 0 <= i < |ext| ==> ext[i] != '.'
    ensures var low := Text.Lower(ext);
      MediaType(None, stem + "." + ext)
        == if low == "png" || low == "jpg" || low == "jpeg" then "image/" + low else "image/jpeg"
  {
    Text.AfterLastDotOfExtension(stem, ext);
  }

  /** A new upload (one whose base64 text differs from the stored one)
      replaces the stored upload and resets the conversation and the
      recommendations; the same image again changes nothing. */
  function ReceiveUpload(chat: ImageChat, encoded: string, reported: Option<string>, fileName: string): (r: ImageChat)
    ensures chat.upload.Some? && chat.upload.value.encoded == encoded ==> r == chat
    ensures !(chat.upload.Some? && chat.upload.value.encoded == encoded) ==>
      && r.upload == Some(Upload(encoded, MediaType(reported, fileName), fileName))
      && r.messages == [] && r.recommendations.None? && r.pending == chat.pending
  {
    if chat.upload.Some? && chat.upload.value.encoded == encoded then chat
    else ImageChat([], chat.pending, None, Some(Upload(encoded, MediaType(reported, fileName), fileName)))
  }

  /** The product record the "+" and "Add All" buttons build from an item:
      the id falls back to '', the name to the id (then ''), the price to 0,
      the description and supplier to ''. */
  function ImageProduct(item: ApiItem): (p: Product)
    ensures p.id == Some(item.artikelId.GetOr(""))
    ensures item.artikelname.Some? ==> p.name == item.artikelname
    ensures item.artikelname.None? ==> p.name == Some(item.artikelId.GetOr(""))
    ensures item.preisStk.Some? ==> p.price == item.preisStk
    ensures item.preisStk.None? ==> p.price == Some(0.0)
    ensures p.details == Pictured(item.kategorie.GetOr(""), item.lieferant.GetOr(""), BoltIcon)
  {
    Product(
      Some(item.artikelId.GetOr("")),
      Some(item.artikelname.GetOr(item.artikelId.GetOr(""))),
      Some(item.preisStk.GetOr(0.0)),
      Pictured(item.kategorie.GetOr(""), item.lieferant.GetOr(""), BoltIcon))
  }

  /** The quantity the buttons add: `anzahl`, else 1. */
  function ImageQty(item: ApiItem): (q: int)
    ensures item.anzahl.Some? ==> q == item.anzahl.value
    ensures item.anzahl.None? ==> q == 1
  {
    item.anzahl.GetOr(1)
  }

  /** The "+" button of one item: `add_to_cart` in add mode. A positive
      quantity is added to whatever the cart holds under the item's id and
      puts that id in the cart; any other quantity changes nothing. */
  function AddImageItem(cart: seq<Line>, item: ApiItem): (r: seq<Line>)
    ensures ImageQty(item) <= 0 ==> r == cart
    ensures ImageQty(item) > 0 ==>
      QtyOf(r, ImageProduct(item).id) == QtyOf(cart, ImageProduct(item).id) + ImageQty(item)
    ensures ImageQty(item) > 0 ==> Ids(r) == Ids(cart) + {ImageProduct(item).id}
    ensures ImageQty(item) > 0 ==>
      forall k :: k != ImageProduct(item).id ==> QtyOf(r, k) == QtyOf(cart, k)
    ensures UniqueIds(cart) ==> UniqueIds(r)
  {
    var p := ImageProduct(item);
    var q := ImageQty(item);
    AddKeepsUnique(cart, p, q, true);
    if q > 0 then
      AddAccumulates(cart, p, q, p.id);
      forall k | k != p.id ensures QtyOf(AddToCart(cart, p, q, true), k) == QtyOf(cart, k) {
        AddAccumulates(cart, p, q, k);
      }
      AddIds(cart, p, q, true);
      AddToCart(cart, p, q, true)
    else AddToCart(cart, p, q, true)
  }

  /** The items, added one after the other in order. */
  function AddItems(cart: seq<Line>, items: seq<ApiItem>): (r: seq<Line>)
    ensures UniqueIds(cart) ==> UniqueIds(r)
    ensures AllPriced(cart) ==> AllPriced(r)
    decreases |items|
  {
    if |items| == 0 then cart
    else
      AddKeepsUnique(cart, ImageProduct(items[0]), ImageQty(items[0]), true);
      if AllPriced(cart) then
        AddKeepsPriced(cart, ImageProduct(items[0]), ImageQty(items[0]), true);
        AddItems(AddImageItem(cart, items[0]), items[1..])
      else AddItems(AddImageItem(cart, items[0]), items[1..])
  }

  /** The cart and chat after "Add All to Cart". */
  datatype CartAndChat = CartAndChat(cart: seq<Line>, chat: ImageChat)

  /** The items of the stored recommendations (`items`, else none). */
  function StoredItems(chat: ImageChat): (items: seq<ApiItem>)
    ensures chat.recommendations.None? ==> items == []
    ensures chat.recommendations.Some? && chat.recommendations.value.items.None? ==> items == []
    ensures chat.recommendations.Some? && chat.recommendations.value.items.Some? ==>
      items == chat.recommendations.value.items.value
  {
    if chat.recommendations.Some? then chat.recommendations.value.items.GetOr([]) else []
  }

  /** "Add All to Cart", shown only while there are recommended items: every
      item is added in order, then the recommendations are cleared. */
  function AddAllToCart(cart: seq<Line>, chat: ImageChat): (r: CartAndChat)
    ensures |StoredItems(chat)| == 0 ==> r == CartAndChat(cart, chat)
    ensures |StoredItems(chat)| > 0 ==>
      && r.cart == AddItems(cart, StoredItems(chat))
      && r.chat == chat.(recommendations := None)
    ensures UniqueIds(cart) ==> UniqueIds(r.cart)
    ensures AllPriced(cart) ==> CalculateTotal(r.cart).Some?
  {
    var items := StoredItems(chat);
    if |items| == 0 then CartAndChat(cart, chat)
    else CartAndChat(AddItems(cart, items), chat.(recommendations := None))
  }

  /** Adding a run of items raises the quantity under an id by the sum of the
      positive quantities of the items with that id, and leaves every other
      id's quantity alone. */
  lemma {:induction false} AddItemsQty(cart: seq<Line>, items: seq<ApiItem>, id: Key)
    ensures QtyOf(AddItems(cart, items), id) == QtyOf(cart, id) + AddedQty(items, id)
    decreases |items|
  {
    if |items| > 0 {
      var p := ImageProduct(items[0]);
      var q := ImageQty(items[0]);
      var next := AddImageItem(cart, items[0]);
      if q > 0 {
        AddAccumulates(cart, p, q, id);
      }
      AddItemsQty(next, items[1..], id);
    }
  }

  /** Σ of the positive quantities of the items whose product id is `id`. */
  function AddedQty(items: seq<ApiItem>, id: Key): int {
    if |items| == 0 then 0
    else
      var q := ImageQty(items[0]);
      (if ImageProduct(items[0]).id == id && q > 0 then q else 0) + AddedQty(items[1..], id)
  }

  /** One round of the conversation: a non-blank reply box followed by a
      reply the view understands leaves the user's stripped text and then
      the assistant's answer at the end of the history, and nothing pending. */
  lemma ConversationRound(chat: ImageChat, input: string, reply: ImageReply)
    requires !Text.AllSpace(input)
    requires !(reply.Answered? && reply.body.Unrecognised?)
    ensures var r := ProcessImageResponse(Send(chat, input), reply);
      && r.messages == chat.messages + [Message(User, Text.Strip(input)), Message(Assistant, ReplyText(reply).value)]
      && !r.pending
  {
    var sent := Send(chat, input);
    assert sent.messages == chat.messages + [Message(User, Text.Strip(input))];
  }
}

=== FILE: orders.dfy ===
/** Order commit of `Frontend/utils.py`: `place_order` snapshots the cart
    into an order at the front of the order list, empties the cart and bumps
    the cart version. */
module Orders {
  import opened Wrappers
  import opened Cart
  import Text

  /** Orders above this total (in EUR) wait for approval. */
  const ApprovalThreshold: real := 200.0

  /** Every order is placed in this requester's name. */
  const Requester: string := "Site Foreman"

  /** The status strings an order can carry; `place_order` produces only the
      first two, the others are those the order history knows how to show. */
  datatype Status = PendingApproval | AutoApproved | Approved | AdminApproved | OrderDeclined

  function StatusLabel(s: Status): (r: string)
    ensures s == PendingApproval <==> r == "Pending Approval"
    ensures s == AutoApproved <==> r == "Auto-Approved"
  {
    match s
    case PendingApproval => "Pending Approval"
    case AutoApproved => "Auto-Approved"
    case Approved => "Approved"
    case AdminApproved => "Admin Approved"
    case OrderDeclined => "Order Declined"
  }

  /** The number drawn by `random.randint(1000, 9999)`; the source does not
      promise it is unused. */
  type OrderNumber = n: int | 1000 <= n <= 9999 witness 1000

  datatype Order = Order(number: OrderNumber, date: string, requester: string,
                         total: real, status: Status, items: seq<Line>)

  /** The `Order ID` field, `ORD-` followed by the number's digits. */
  function OrderId(o: Order): (id: string)
    ensures |id| > 4 && id[..4] == "ORD-"
    ensures forall i :: 4 <= i < |id| ==> '0' <= id[i] <= '9'
    ensures Text.DigitsValue(id[4..]) == o.number
    ensures |id| > 5 ==> id[4] != '0'
  {
    Text.Numbered("ORD-", o.number)
  }

  /** The part of the session state that holds the cart and the orders. */
  datatype Session = Session(cart: seq<Line>, orders: seq<Order>, cartVersion: int)

  /** The status an order of the given total is placed with. */
  function StatusFor(total: real): (s: Status)
    ensures s == PendingApproval <==> total > ApprovalThreshold
    ensures s == AutoApproved <==> total <= ApprovalThreshold
  {
    if total > ApprovalThreshold then PendingApproval else AutoApproved
  }

  datatype Placed = Placed(session: Session, status: Status)

  /** Why `place_order` can fail: a cart line without a price makes the total
      raise before anything is changed. */
  datatype OrderError = MissingPrice

  /** `place_order()`, with the random number and the timestamp as inputs. */
  function PlaceOrder(s: Session, number: OrderNumber, date: string): (r: Result<Placed, OrderError>)
    ensures r.Failure? <==> !AllPriced(s.cart)
    ensures r.Failure? ==> r.error == MissingPrice
    ensures r.Success? ==>
      var after := r.value.session;
      && |after.orders| == |s.orders| + 1
      && after.orders[1..] == s.orders
      && after.orders[0].items == s.cart
      && Some(after.orders[0].total) == CalculateTotal(s.cart)
      && after.orders[0].status == r.value.status
      && (r.value.status == PendingApproval <==> after.orders[0].total > ApprovalThreshold)
      && (r.value.status == AutoApproved <==> after.orders[0].total <= ApprovalThreshold)
      && after.orders[0].number == number
      && after.orders[0].date == date
      && after.orders[0].requester == Requester
      && after.cart == []
      && after.cartVersion == s.cartVersion + 1
  {
    match CalculateTotal(s.cart)
    case None => Failure(MissingPrice)
    case Some(total) =>
      var status := StatusFor(total);
      var order := Order(number, date, Requester, total, status, s.cart);
      Success(Placed(Session([], [order] + s.orders, s.cartVersion + 1), status))
  }

  /** A cart of exactly 200 EUR is auto-approved. */
  lemma ThresholdIsStrict(s: Session, number: OrderNumber, date: string)
    requires CalculateTotal(s.cart) == Some(200.0)
    ensures PlaceOrder(s, number, date).Success?
    ensures PlaceOrder(s, number, date).value.status == AutoApproved
  {
  }

  /** 50 screws at 0.08 are an order of 4 EUR, placed auto-approved; two
      items at 150 are an order of 300 EUR, placed pending approval. */
  lemma SampleOrders(p: Product, q: Product, number: OrderNumber, date: string)
    requires p.price == Some(0.08) && q.price == Some(150.0)
    ensures var r := PlaceOrder(Session([Line(p, 50)], [], 0), number, date);
      && r.Success? && r.value.status == AutoApproved
      && r.value.session.orders[0].total == 4.0 && r.value.session.cart == []
    ensures var r := PlaceOrder(Session([Line(q, 2)], [], 0), number, date);
      && r.Success? && r.value.status == PendingApproval
      && r.value.session.orders[0].total == 300.0
  {
    assert [Line(p, 50)][1..] == [] && [Line(q, 2)][1..] == [];
    assert SumCost([Line(p, 50)]) == Cost(Line(p, 50)) == 4.0;
    assert SumCost([Line(q, 2)]) == Cost(Line(q, 2)) == 300.0;
  }
}

=== FILE: reports.dfy ===
/** The three figures of `Frontend/views/reports.py`, and how placing an
    order moves them. */
module Reports {
  import opened Cart
  import opened Orders

  /** "Total Orders": the length of the order list. */
  function TotalOrders(orders: seq<Order>): (n: nat)
    ensures n == 0 <==> orders == []
    ensures PendingCount(orders) <= n
  {
    |orders|
  }

  /** "Total Spend": Σ `Total (EUR)` over every order, whatever its status. */
  function TotalSpend(orders: seq<Order>): (r: real)
    ensures |orders| == 0 ==> r == 0.0
    ensures |orders| == 1 ==> r == orders[0].total
  {
    if |orders| == 0 then 0.0 else orders[0].total + TotalSpend(orders[1..])
  }

  /** "Pending Approvals": the orders whose status is exactly "Pending Approval". */
  function PendingCount(orders: seq<Order>): (n: nat)
    ensures n <= |orders|
    ensures n == 0 <==> forall i :: 0 <= i < |orders| ==> orders[i].status != PendingApproval
    ensures |orders| == 1 ==> n == if orders[0].status == PendingApproval then 1 else 0
  {
    if |orders| == 0 then 0
    else
      var rest := PendingCount(orders[1..]);
      assert forall i :: 1 <= i < |orders| ==> orders[i] == orders[1..][i - 1];
      (if StatusLabel(orders[0].status) == "Pending Approval" then 1 else 0) + rest
  }

  /** Spend over no orders is zero, and spend adds up over concatenation. */
  lemma {:induction false} TotalSpendAppend(a: seq<Order>, b: seq<Order>)
    ensures TotalSpend(a + b) == TotalSpend(a) + TotalSpend(b)
  {
    if |a| > 0 {
      assert (a + b)[1..] == a[1..] + b;
      TotalSpendAppend(a[1..], b);
    } else {
      assert a + b == b;
    }
  }

  /** The pending count adds up over concatenated order lists, so with the
      one-order case it counts exactly the pending orders of any list. */
  lemma {:induction false} PendingCountAppend(a: seq<Order>, b: seq<Order>)
    ensures PendingCount(a + b) == PendingCount(a) + PendingCount(b)
  {
    if |a| > 0 {
      assert (a + b)[1..] == a[1..] + b;
      PendingCountAppend(a[1..], b);
    } else {
      assert a + b == b;
    }
  }

  /** Placing an order adds one order, adds its total to the spend, and adds
      one to the pending count exactly when the total is above 200. */
  lemma PlaceOrderMovesReports(s: Session, number: OrderNumber, date: string)
    requires PlaceOrder(s, number, date).Success?
    ensures var after := PlaceOrder(s, number, date).value.session.orders;
      && TotalOrders(after) == TotalOrders(s.orders) + 1
      && TotalSpend(after) == TotalSpend(s.orders) + SumCost(s.cart)
      && PendingCount(after) == PendingCount(s.orders) + (if SumCost(s.cart) > ApprovalThreshold then 1 else 0)
  {
    var after := PlaceOrder(s, number, date).value.session.orders;
    assert after[1..] == s.orders;
  }
}

=== FILE: text.dfy ===
/** String helpers the source gets from Python's `str`: decimal formatting of
    a non-negative integer, `strip()`, `lower()` on ASCII letters, and the
    last component of `split('.')`. */
module Text {

  /** Python's `str.isspace` on one character: the ASCII separators
      U+0009..U+000D, U+001C..U+001F and the space, plus the Unicode white
      space characters. */
  predicate IsSpace(c: char) {
    || ('\t' <= c <= '\r')
    || ('\U{001C}' <= c <= ' ')
    || c == '\U{0085}' || c == '\U{00A0}' || c == '\U{1680}'
    || ('\U{2000}' <= c <= '\U{200A}')
    || c == '\U{2028}' || c == '\U{2029}' || c == '\U{202F}'
    || c == '\U{205F}' || c == '\U{3000}'
  }

  predicate AllSpace(s: string) {
    forall i :: 0 <= i < |s| ==> IsSpace(s[i])
  }

  /** Number of white space characters at the front of `s`. */
  function LeadingSpace(s: string): (k: nat)
    ensures k <= |s|
    ensures AllSpace(s[..k])
    ensures k < |s| ==> !IsSpace(s[k])
  {
    if |s| == 0 || !IsSpace(s[0]) then 0
    else
      var k := 1 + LeadingSpace(s[1..]);
      assert s[..k] == [s[0]] + s[1..][..k - 1];
      k
  }

  /** Number of white space characters at the back of `s`. */
  function TrailingSpace(s: string): (k: nat)
    ensures k <= |s|
    ensures AllSpace(s[|s| - k..])
    ensures k < |s| ==> !IsSpace(s[|s| - k - 1])
  {
    if |s| == 0 || !IsSpace(s[|s| - 1]) then 0
    else
      var k := 1 + TrailingSpace(s[..|s| - 1]);
      assert s[|s| - k..] == s[..|s| - 1][|s| - k..] + [s[|s| - 1]];
      k
  }

  /** `t` without its trailing white space. */
  function StripEnd(t: string): (r: string)
    ensures |r| <= |t| && r == t[..|r|]
    ensures AllSpace(t[|r|..])
    ensures |r| > 0 ==> !IsSpace(r[|r| - 1])
  {
    t[..|t| - TrailingSpace(t)]
  }

  /** Python's `s.strip()`: the slice of `s` left after removing white space
      from both ends. */
  function Strip(s: string): (r: string)
    ensures LeadingSpace(s) + |r| <= |s|
    ensures r == s[LeadingSpace(s)..LeadingSpace(s) + |r|]
    ensures AllSpace(s[LeadingSpace(s) + |r|..])
    ensures |r| > 0 ==> !IsSpace(r[0]) && !IsSpace(r[|r| - 1])
    ensures |r| == 0 <==> AllSpace(s)
  {
    var a := LeadingSpace(s);
    var r := StripEnd(s[a..]);
    SliceOfSuffix(s, a, |r|);
    StripCovers(s, a, |r|);
    assert |r| > 0 ==> r[0] == s[a];
    r
  }

  lemma SliceOfSuffix(s: string, a: nat, m: nat)
    requires a + m <= |s|
    ensures s[a..][..m] == s[a..a + m]
    ensures s[a..][m..] == s[a + m..]
  {
  }

  /** When the front `a` and the back from `a + m` are white space, the
      whole string is white space exactly when the middle is empty. */
  lemma StripCovers(s: string, a: nat, m: nat)
    requires a + m <= |s|
    requires AllSpace(s[..a]) && AllSpace(s[a + m..])
    requires a < |s| ==> !IsSpace(s[a])
    ensures m == 0 <==> AllSpace(s)
  {
    if m == 0 {
      assert s == s[..a] + s[a..];
      AllSpaceConcat(s[..a], s[a..]);
    } else {
      assert !IsSpace(s[a]);
    }
  }

  lemma AllSpaceConcat(a: string, b: string)
    ensures AllSpace(a) && AllSpace(b) ==> AllSpace(a + b)
  {
    if AllSpace(a) && AllSpace(b) {
      forall i | 0 <= i < |a + b| ensures IsSpace((a + b)[i]) {
        if i < |a| { assert (a + b)[i] == a[i]; } else { assert (a + b)[i] == b[i - |a|]; }
      }
    }
  }

  /** Stripping twice removes nothing more. */
  lemma {:induction false} StripIdempotent(s: string)
    ensures Strip(Strip(s)) == Strip(s)
  {
    var r := Strip(s);
    if |r| > 0 {
      assert LeadingSpace(r) == 0;
      assert r[0..] == r;
      assert TrailingSpace(r) == 0;
    } else {
      assert Strip(r) == [];
    }
  }

  /** ASCII case folding of one character; every other character is kept. */
  function LowerChar(c: char): (d: char)
    ensures 'A' <= c <= 'Z' ==> d as int == c as int + 32
    ensures !('A' <= c <= 'Z') ==> d == c
  {
    if 'A' <= c <= 'Z' then (c as int + 32) as char else c
  }

  /** Python's `s.lower()` restricted to ASCII letters. */
  function Lower(s: string): (r: string)
    ensures |r| == |s|
    ensures forall i :: 0 <= i < |s| ==> r[i] == LowerChar(s[i])
  {
    seq(|s|, i requires 0 <= i < |s| => LowerChar(s[i]))
  }

  /** Python's `s.split('.')[-1]`: everything after the last '.', or all of
      `s` when it holds no '.'. */
  function AfterLastDot(s: string): (r: string)
    ensures |r| <= |s| && r == s[|s| - |r|..]
    ensures forall i :: 0 <= i < |r| ==> r[i] != '.'
    ensures |r| < |s| ==> s[|s| - |r| - 1] == '.'
  {
    s[|s| - DotFreeTail(s)..]
  }

  /** The length of the longest '.'-free suffix of `s`. */
  function DotFreeTail(s: string): (k: nat)
    ensures k <= |s|
    ensures forall i :: |s| - k <= i < |s| ==> s[i] != '.'
    ensures k < |s| ==> s[|s| - k - 1] == '.'
  {
    if |s| == 0 || s[|s| - 1] == '.' then 0
    else 1 + DotFreeTail(s[..|s| - 1])
  }

  /** For `stem + "." + ext` with no '.' in `ext`, the last component is `ext`. */
  lemma {:induction false} AfterLastDotOfExtension(stem: string, ext: string)
    requires forall i :: 0 <= i < |ext| ==> ext[i] != '.'
    ensures AfterLastDot(stem + "." + ext) == ext
  {
    var s := stem + "." + ext;
    var r := AfterLastDot(s);
    assert s[|stem|] == '.';
  }

  function DigitChar(d: nat): (c: char)
    requires d < 10
    ensures '0' <= c <= '9' && c as int - '0' as int == d
  {
    "0123456789"[d]
  }

  /** Python's `str(n)` for a non-negative integer: its decimal digits. */
  function NatToString(n: nat): (s: string)
    ensures |s| >= 1
    ensures forall i :: 0 <= i < |s| ==> '0' <= s[i] <= '9'
    ensures n >= 10 ==> s[0] != '0'
    ensures |s| > 1 ==> s[0] != '0'
  {
    if n < 10 then [DigitChar(n)]
    else NatToString(n / 10) + [DigitChar(n % 10)]
  }

  /** The number a string of decimal digits denotes. */
  function DigitsValue(s: string): nat
    requires forall i :: 0 <= i < |s| ==> '0' <= s[i] <= '9'
  {
    if |s| == 0 then 0
    else DigitsValue(s[..|s| - 1]) * 10 + (s[|s| - 1] as int - '0' as int)
  }

  /** Reading the digits back gives the number: formatting loses nothing. */
  lemma {:induction false} NatToStringRoundTrip(n: nat)
    ensures DigitsValue(NatToString(n)) == n
  {
    if n >= 10 {
      var s := NatToString(n);
      assert s[..|s| - 1] == NatToString(n / 10);
      NatToStringRoundTrip(n / 10);
    }
  }

  /** Different numbers format differently. */
  lemma NatToStringInjective(m: nat, n: nat)
    requires NatToString(m) == NatToString(n)
    ensures m == n
  {
    NatToStringRoundTrip(m);
    NatToStringRoundTrip(n);
  }

  /** `prefix` followed by the decimal form of `n`, as an f-string would write it. */
  function Numbered(prefix: string, n: nat): (id: string)
    ensures |id| > |prefix| && id[..|prefix|] == prefix
    ensures forall i :: |prefix| <= i < |id| ==> '0' <= id[i] <= '9'
    ensures DigitsValue(id[|prefix|..]) == n
    ensures |id| > |prefix| + 1 ==> id[|prefix|] != '0'
  {
    var digits := NatToString(n);
    NatToStringRoundTrip(n);
    assert (prefix + digits)[|prefix|..] == digits;
    prefix + digits
  }
}

=== FILE: wrappers.dfy ===
/** Option and Result values used across the model: a missing JSON key is
    `None`, and an operation that raises in the source returns `Failure`. */
module Wrappers {

  datatype Option<+T> = None | Some(value: T) {

    /** The value, or `default` when absent (Python's `dict.get(key, default)`). */
    function GetOr(default: T): T {
      match this
      case Some(v) => v
      case None => default
    }
  }

  datatype Result<+R, +E> = Success(value: R) | Failure(error: E)
}
